=== FILE: README.md ===
# A verified model of the math.js / app.js function plotter

The plotter reads a formula in `x` from a text field, "compiles" it, and
draws it on a canvas one column at a time. This project models in Dafny the
parts of it that decide something:

- **the expression engine** of `math.js`: `compile`, `evaluate` and
  `resolve`. The engine rewrites text. It deletes whitespace, then replaces
  innermost parenthesised groups by their values until no `(` is left. It
  then makes one regex pass each for `^`, for `*` `/` and for `+` `-`, and
  one pass per built-in function name. Finally it resolves what is left as a
  single token with `parseFloat`.
- **the graph list** of `app.js`: `plotEquation`, `clearGraphs`,
  `updateLineColor` and `updateLineWidth`.
- **the pen logic** of `drawFunction`: which columns get a pen call, and which of
  them start a new stroke (`moveTo`) or continue one (`lineTo`).
- **the 1/2/5/10 choice** of `calculateTickInterval`.

The model follows the code. The engine has no tokenizer and no grammar: it
has no operator precedence beyond the order of its passes, no associativity,
no unary minus operator (a sign is read only by `parseFloat` on the final
token), no function calls, and no parse errors at compile time. The
model proves several of the consequences:

- `compile` never fails.
- Text with more `(` than `)` never evaluates to a value: evaluation either
  loops forever or throws. It loops on `(2+3` and on `( )`. It throws when
  one of the groups it does find fails, as in `(a)(`, where `a` is an
  unknown token.
- The built-in functions are never applied. `sin(0)` throws: the group `(0)` becomes the text of 0, and `sin` followed by that text is an unknown token.
- `2^3^2` reduces only its leftmost `2^3` in the single exponent pass.
- `parseFloat` ignores trailing text, so `2*pi` evaluates to `2`.

Modules, one file each:

| file | module | what it holds |
|---|---|---|
| outcomes.dfy | `Outcomes` | `Option`, and `Outcome` = returns / throws with a message / never returns |
| text.dfy | `Text` | the ECMA-262 whitespace set, `replace(/\s+/g, '')`, `trim` |
| replace.dfy | `RegexReplace` | `String.prototype.replace` with a global regex and a callback, over an abstract matcher |
| patterns.dfy | `Patterns` | the engine's three regular expressions as matchers |
| parens.dfy | `Parens` | the `while (expr.includes('('))` loop |
| resolver.dfy | `Resolver` | `resolve`, and the prefix `parseFloat` reads |
| engine.dfy | `Engine` | `evaluate`, `compile`, and calling a compiled function |
| graphs.dfy | `Graphs` | the graph list and the handlers that change it |
| pen.dfy | `Pen` | the column loop of `drawFunction` |
| ticks.dfy | `Ticks` | the nice-number choice of `calculateTickInterval` |

Numbers are opaque: a type parameter `N` with a record `Numbers<N>` holding:

- `scope.x`, `Math.E` and `Math.PI`;
- the value of a decimal literal;
- the five binary operators;
- Number-to-String conversion.

The model decides everything the code decides by looking at text, and nothing
about floating-point values.

## Model

| member | source | states |
|---|---|---|
| Text.IsWhitespace | math.js:18 | The ECMA-262 WhiteSpace and LineTerminator characters: the `\s` class of `replace(/\s+/g, '')`, and the set `trim` (app.js line 63) and `parseFloat` (math.js line 60) skip. |
| Text.StripWhitespace | math.js:18 | The result contains no whitespace. Every non-whitespace character occurs in it exactly as often as in the input, and no character is introduced. |
| Text.StripConcat | math.js:18 | Deleting whitespace commutes with concatenation, so the kept characters stay in their original order. |
| Text.StripFixesClean | math.js:18 | Text without whitespace is left unchanged. |
| Text.StripIdempotent | math.js:18 | Stripping twice is the same as stripping once. |
| Text.TrimStart | math.js:60 | `parseFloat` first drops exactly the leading whitespace: the result is a suffix of the input, everything dropped is whitespace, and the result does not start with whitespace. |
| Text.Trim | app.js:63 | `trim` returns the middle of the text: only whitespace is cut at either end, the result neither starts nor ends with whitespace, and it is empty exactly when the text is all whitespace. |
| Text.TrimFixesTrimmed | app.js:63 | Text with no whitespace at either end is its own trim. |
| Text.TrimIdempotent | app.js:63 | Trimming twice is the same as trimming once. |
| RegexReplace.ReplaceFrom | math.js:22-50 | The scan of `String.prototype.replace` with a global regex and a callback, from position `i`. `RegexReplace.ReplaceIsTwoPhase`, `RegexReplace.SegmentsTile` and `RegexReplace.ReplaceNeverHangs` characterise it. |
| RegexReplace.Replace | math.js:22-50 | `replace(regex, callback)` on a whole string: the scan from position 0, as each pass of `evaluate` calls it. |
| RegexReplace.Segments | math.js:22-50 | The matches a global scan finds from position `i` all start inside `s[i..]`. |
| RegexReplace.SegmentsTile | math.js:22-50 | The matches and the characters between them tile the subject from `i` on, in order and without overlap, and each match is the one the pattern reports at its position. |
| RegexReplace.ReplaceIsTwoPhase | math.js:22-50 | The left-to-right replacing scan equals the two-phase procedure of ECMA-262 section 22.2.6.11: collect all matches on the original subject, then splice in the callbacks' results. So a replacement is never rescanned. |
| RegexReplace.MatchesFound | math.js:22-50 | If the pattern matches anywhere at or after `i`, the scan from `i` finds at least one match. |
| RegexReplace.ReplaceNoMatch | math.js:22-50 | Where the pattern matches nowhere, `replace` returns its subject unchanged. |
| RegexReplace.ReplaceKeepsNoOpen | math.js:22-50 | A successful replace on text with no `(` yields text with no `(`, because every callback result is flat text. |
| RegexReplace.ReplaceCongruent | math.js:22-50 | `replace` depends on its callback only through the values the callback returns. |
| RegexReplace.ReplaceNeverHangs | math.js:22-50 | A `replace` whose callback always returns or throws also always returns or throws. |
| Patterns.GroupAt | math.js:22 | The regex `\(([^()]+)\)` tried at one position. A match ends after its start and inside the subject; `Patterns.GroupAtSpec` characterises it. |
| Patterns.GroupAtSpec | math.js:22 | `\(([^()]+)\)` matches at `i` with inner text `inner` exactly when `s[i]` is `(`, the text up to the next `)` is non-empty and holds no parenthesis, and `inner` is that text. |
| Patterns.OperandEnd | math.js:26 | The operand pattern, a `[\d.]+` run or an `x`, tried at one position. It reads a non-empty span inside the subject; `Patterns.OperandEndSound` and `Patterns.OperandEndComplete` characterise it. |
| Patterns.BinaryAt | math.js:26-34 | The binary pattern, an operand, one operator of the pass's class, and an operand, tried at one position. `Patterns.BinaryAtSound` and `Patterns.BinaryAtComplete` characterise it. |
| Patterns.OperandEndSound | math.js:26 | What the operand pattern (a `[\d.]` run or `x`) reads at `i` is a whole operand, and a number operand ends where its run of `[\d.]` ends. |
| Patterns.OperandEndComplete | math.js:26 | Every operand at `i` that is not followed by more number characters is read there, with exactly its length. |
| Patterns.BinaryAtSound | math.js:26-34 | A binary match is an operand, one operator of the pass, and a whole right operand; the captures are exactly these three parts of the subject. |
| Patterns.BinaryAtComplete | math.js:26-34 | Conversely, every operand–operator–whole operand at `i` is matched there with exactly those captures. |
| Patterns.BinaryLeftMaximal | math.js:26-35 | In a pass's scan no match begins in the middle of a number: every left operand is a maximal `[\d.]` run or an `x`. |
| Patterns.PowerSweepLeftmostOnly | math.js:26-27 | The `^` pass over `2^3^2` replaces only the leftmost `2^3` and copies `^2`, whatever the callback returns. |
| Patterns.CallAt | math.js:49 | The regex `name\(([^)]+)\)` tried at one position. A match ends after its start and inside the subject; `Patterns.CallAtSpec` characterises it. |
| Patterns.CallAtSpec | math.js:49 | A call match is exactly the name, `(`, one or more characters other than `)`, and a `)`, with the text between as the capture; the capture may hold `(`. |
| Patterns.CallAtNeedsOpen | math.js:49 | A call pattern matches only with a `(` right after the function name, so text without `(` has no call match. |
| Parens.GroupSpanCounts | math.js:22 | A matched group spans exactly one `(` and one `)`. |
| Parens.GroupSweepCounts | math.js:22 | A successful sweep removes one `(` and one `)` for each group it replaces. |
| Parens.GroupStep | math.js:21-23 | One loop iteration strictly lowers the number of `(` when a group exists. When none exists the text is unchanged. The difference between the `(` and `)` counts is preserved either way. |
| Parens.NoGroupInside | math.js:22 | No group match starts strictly inside another. |
| Parens.EveryGroupMatched | math.js:22 | Every position from `i` on where the group pattern matches is a match of the sweep, with that very span and inner text. |
| Parens.SweepReplacesEveryGroup | math.js:21-22 | One loop iteration replaces every innermost non-empty group at once: the result splices the sweep's segments, and every group of the text is one of them. |
| Parens.ParenLoop | math.js:21-23 | When the loop exits, no `(` is left, and exactly as many `)` have been removed as the input had `(`. An iteration that changes the text lowers the `(` count, and one that does not is reported as a hang. |
| Parens.ParenLoopStuck | math.js:21-23 | With a `(` left and no innermost non-empty group, the loop never exits. |
| Parens.UnclosedNeverExits | math.js:21-23 | If the input has more `(` than `)`, the loop never returns a value: it hangs or throws. |
| Parens.UnclosedGroupHangs | math.js:21-23 | The loop hangs on `(2+3`. |
| Parens.EmptyGroupHangs | math.js:21-23 | The loop hangs on `()`. |
| Parens.ParenLoopCongruent | math.js:21-23 | The loop depends on the group callback only through the values it returns. |
| Parens.ParenLoopOneSweep | math.js:21-23 | A sweep that leaves no `(` ends the loop with that text. |
| Resolver.LiteralLength | math.js:60 | The decimal literal `parseFloat` reads is a non-empty prefix of the token. |
| Resolver.LiteralLengthIsLiteral | math.js:60 | The prefix `LiteralLength` measures is a StrDecimalLiteral of ECMA-262 section 7.1.4.1: an optional sign, then `Infinity`, or digits, a point and digits with at least one digit, or digits alone, each with an optional exponent. |
| Resolver.LiteralReachedAtLeast | math.js:60 | Every prefix that is a StrDecimalLiteral is found, and it is no longer than the measured one. |
| Resolver.LiteralLengthIsLongest | math.js:60 | `LiteralLength` is the length of the longest StrDecimalLiteral prefix, as `parseFloat` reads it (ECMA-262 section 19.2.4). It is None exactly when no prefix is one. |
| Resolver.LiteralLengthFound | math.js:60-61 | `parseFloat` finds a number exactly when the text starts like one: an optional sign, then `Infinity`, a digit, or `.` followed by a digit. |
| Resolver.ParseFloatPrefix | math.js:60 | `parseFloat` reads a non-empty prefix of the token after its leading whitespace. It reads one exactly when that trimmed text starts like a number. |
| Resolver.ParseFloatReadsLongest | math.js:60 | After the leading whitespace, `parseFloat` reads a StrDecimalLiteral that no longer prefix extends. It gives NaN exactly when no prefix there is a StrDecimalLiteral. |
| Resolver.Resolve | math.js:56-63 | `resolve` never hangs. It throws exactly when the token is not `x`, `e` or `pi` and, after its leading whitespace, does not start like a number. The message is then `Unknown token: ` followed by the whole token. |
| Resolver.ResolveNames | math.js:57-59 | `x`, `e` and `pi` give `scope.x`, `Math.E` and `Math.PI`. Other spellings such as `PI` or ` x` do not reach them. |
| Resolver.ReadsPrefix | math.js:60-61 | A token that is not a name and has no leading space resolves to the value of the prefix `LiteralLength` measures. |
| Resolver.ResolveReadsLongest | math.js:56-61 | A token that is not a name, has no leading space, and starts with a StrDecimalLiteral that no longer prefix extends resolves to the value of that literal. |
| Resolver.ResolveIgnoresTrailing | math.js:60-61 | Trailing text is ignored: `2*pi`, `5+4` and `1.2.3` resolve to `2`, `5` and `1.2`. |
| Resolver.ResolveLongestLiteral | math.js:60-61 | The longest literal is read: `-Infinityx` gives `-Infinity`, `1e5e` gives `1e5`, and `7e+` gives `7`. |
| Resolver.ResolveRejects | math.js:60-62 | `NaN`, `.` and the empty token are unknown tokens, each with its message. |
| Resolver.ResolveLeadingLetter | math.js:56-62 | A token whose first character can start no name and no number is an unknown token. |
| Engine.Builtins | math.js:38-48 | The seven keys of the `functions` table in insertion order, which `Object.entries` follows. They are distinct and made of lower-case letters only, so the pattern built from each name matches the name literally. |
| Engine.Shown | math.js:22-50 | A callback's value converted to the text `replace` splices in. The conversion succeeds exactly when the value was computed; an error or a hang passes through unchanged. |
| Engine.ApplyBinary | math.js:26-35 | An operator callback never hangs. It throws exactly when either operand fails to resolve, and the left operand's error takes precedence. |
| Engine.BinaryPass | math.js:26-35 | An operator pass never hangs, and it introduces no `(`. |
| Engine.Arithmetic | math.js:25-35 | The three operator passes in order never hang, and they introduce no `(`. |
| Engine.CallPass | math.js:49-50 | A function pass on text without `(` leaves it unchanged. |
| Engine.CallReplaceUnchanged | math.js:49-50 | The call pattern matches nowhere in text without `(`, so a function pass returns that text unchanged. |
| Engine.CallPasses | math.js:48-51 | The seven function passes leave text without `(` unchanged. |
| Engine.Finish | math.js:25-53 | Without a `(` the steps after the loop never hang. |
| Engine.EvaluateFlat | math.js:22 | Evaluating a group's inner text never hangs. |
| Engine.GroupText | math.js:22 | The group callback `(match, inner) => evaluate(inner, scope)`, converted to text as `replace` does. `Engine.EvaluateFlatAgrees` shows the inner text is evaluated as a whole input would be. |
| Engine.Evaluate | math.js:16-54 | A value is returned only if the stripped input has at least as many `)` as `(`. Input without `(` never hangs. |
| Engine.FinishSkipsCalls | math.js:48-53 | Without a `(` the function passes are skipped: the result is the operator passes followed by `resolve`. |
| Engine.BuiltinsNeverApplied | math.js:38-51 | `evaluate` gives the same outcome for every input whatever the built-in functions compute, so the functions table is never used. |
| Engine.EvaluateFlatAgrees | math.js:22 | A group's inner text is evaluated exactly as the whole input would be. |
| Engine.WhitespaceInsensitive | math.js:18 | Whitespace anywhere in the input makes no difference to the outcome. |
| Engine.UnclosedEvaluationHangs | math.js:16-54 | `evaluate("(2+3")` never returns. |
| Engine.EmptyGroupEvaluationHangs | math.js:16-54 | `evaluate("( )")` never returns. |
| Engine.EarlierGroupThrows | math.js:16-54 | `evaluate("(a)(")` throws rather than hangs: the group `(a)` is evaluated first and `a` is an unknown token. |
| Engine.BinaryPassUnchanged | math.js:26-35 | A pass that matches nowhere returns its subject. |
| Engine.ArithmeticKeepsHead | math.js:25-35 | The operator passes keep a first character that cannot start an operand. |
| Engine.FinishLeadingLetter | math.js:25-62 | Text that starts with a character beginning no name and no number ends in an error. |
| Engine.CallBecomesUnknownToken | math.js:16-54 | `evaluate("sin(0)")` throws: the group becomes the text of 0, and `sin` followed by a number is an unknown token. |
| Engine.EvaluateUnmatched | math.js:25-53 | Text without parentheses or whitespace that no pass matches evaluates to `resolve` of the text itself. |
| Engine.ConstantIsNoOperand | math.js:16-54 | `evaluate("2*pi")` is the literal `2`: `pi` is no operand, so no pass matches, and `parseFloat` ignores the rest. |
| Engine.StrayCloseIgnored | math.js:16-54 | `evaluate("7)")` is the literal `7`: a stray `)` is never examined. |
| Engine.Compile | math.js:3-13 | `compile` never throws, whatever the text, and the function it returns evaluates that same text. |
| Engine.Call | math.js:4-10 | Calling a compiled function returns what `evaluate` returns with `scope.x` bound, and hangs when it hangs. An error comes back as `Error evaluating at x=<x>: <message>`. |
| Engine.CompileDefersErrors | math.js:3-13 | `(2+3` and `sin(0)` both compile. Calling the first hangs and calling the second throws. |
| Ticks.Multiplier | app.js:193-201 | The multiplier is 1 exactly below 1.5, 2 exactly from 1.5 below 3, 5 exactly from 3 below 7, and 10 exactly from 7 on. |
| Ticks.NiceInterval | app.js:192-203 | The interval is the multiplier chosen for the normalized value times the magnitude. For a positive magnitude it lies between the magnitude and ten times the magnitude. |
| Ticks.MultiplierMonotone | app.js:193-201 | A larger normalized value never picks a smaller multiplier. |
| Ticks.MultiplierClose | app.js:193-201 | For a normalized value `n` in `[1, 10)` the multiplier lies in `(2n/3, 5n/3]`. |
| Ticks.NiceIntervalClose | app.js:185-203 | The chosen interval lies within a factor of 2/3 to 5/3 of the raw interval. |
| Pen.Less | app.js:222 | The JavaScript `<` on numbers, false whenever either side is NaN. `Pen.NaNIsDrawn` and `Pen.NaNBoundAcceptsAll` state what this means for the range test. |
| Pen.Rejected | app.js:222 | The range test: `y < yMin` or `y > yMax`, each with the JavaScript `<`. |
| Pen.Drawn | app.js:218-225 | A column gets a pen call when its sample returned and the range test does not reject the value. `Pen.DrawnExactly` proves the loop follows this. |
| Pen.Expected | app.js:215-238 | The reference pen calls, column by column without pen state: a column that passes gets a `lineTo` when the column before also passed, else a `moveTo`. `Pen.DrawFunction` is proved to emit exactly these calls. |
| Pen.DrawFunction | app.js:206-243 | The `firstValidPoint` loop emits exactly the reference pen calls: each column that passes gives one call, a `lineTo` when the previous column got a call and a `moveTo` otherwise. |
| Pen.ColumnsIncrease | app.js:215 | Pen calls come out in strictly increasing column order, so no column gets two. |
| Pen.DrawnExactly | app.js:219-235 | A column gets a pen call exactly when its sample returned a value the range test lets through. |
| Pen.LineToFollowsDrawn | app.js:229-238 | A pen call is a `lineTo` exactly when the column before it got a pen call: after a throw or an out-of-range value the next call is a `moveTo`. |
| Pen.PointsCarrySamples | app.js:219-234 | Every pen call carries the value its own column's sample returned. |
| Pen.NaNIsDrawn | app.js:222 | A NaN sample passes the range test, so its column gets a pen call. |
| Pen.NaNBoundAcceptsAll | app.js:222 | With NaN range bounds every returned value gets a pen call. |
| Graphs.PlotEquation | app.js:62-87 | A blank field leaves the state unchanged, and only a blank field does. Otherwise exactly one graph is appended with the trimmed text and the current style, earlier graphs stay, and the field is emptied. Well-formedness is kept. |
| Graphs.Step | app.js:52-92 | Every handler keeps the graphs well formed. Only a clear removes graphs, and it removes all of them while keeping the style and the field. A colour change sets only the colour, a width change only the width, typing only the field. Plotting keeps the style. |
| Graphs.RunKeepsValid | app.js:62-76 | Over any session, every stored graph holds a non-blank, trimmed equation compiled from that very text. |
| Graphs.RunWithoutClearAppends | app.js:52-92 | Without a clear, graphs are only ever appended: none is removed, reordered or restyled. |
| Graphs.ClearForgets | app.js:89-92 | After a clear, the list holds exactly what later events plot. |
| Graphs.PageSession | app.js:19-21 | From page load, every stored graph is well formed, and the style is `#3366ff` at 2 pixels until a change replaces it. |
| Graphs.RunStyle | app.js:52-60 | After any session, the current colour and width are those of the latest colour and width change, or the initial ones if there was none. |
| Graphs.PlotUsesLatestStyle | app.js:52-76 | Typing a non-blank equation and plotting appends exactly one graph: the trimmed text, compiled, in the colour and width of the latest changes. Earlier graphs stay. |
| Graphs.TypeThenPlot | app.js:62-63 | Typing a text and then plotting is `plotEquation` with that text in the field. |
| Graphs.PlotTwiceIsOnce | app.js:62-84 | Plotting twice in a row is the same as plotting once, because the first plot empties the field. |
| Graphs.BlankIsIgnored | app.js:63-64 | Typing whitespace and plotting leaves the graphs as they were. |
| Graphs.MalformedIsPlotted | app.js:66-76 | An equation with an unclosed `(` is compiled and stored. Calling its function never returns. |

## Left out

- The DOM, the canvas, event wiring, window resizing and the service worker: they are I/O. The model's inputs are the values the handlers read and its outputs are the values they write.
- `redrawGraphs` and `drawAxes`: they are canvas drawing. Because `plotEquation` redraws before it empties the field, a stored equation whose function hangs (see `Graphs.MalformedIsPlotted`) leaves the page stuck in that redraw, so the field is never emptied. The model's `Graphs.PlotEquation` treats the plot as completing.
- Floating-point arithmetic, `Math.pow`, `Math.E`, `Math.PI`, the numeric value `parseFloat` assigns to a literal, and Number-to-String conversion: these are abstract operations of `Numbers<N>`. The model fixes only which text each is applied to.
- The seven `Math.*` functions: they are the abstract `applyCall` of `Engine.Env`, and `Engine.BuiltinsNeverApplied` proves their result never matters.
- `Math.log10`, `Math.floor` and `Math.pow` in `calculateTickInterval`, and the pixel arithmetic around it: the magnitude and the normalized value are inputs of `Ticks.NiceInterval`, and real numbers stand for doubles.
- Ticks.NiceInterval: does not model NaN or infinite intervals from a zero range or a zero width, because the reals have none.
- Pixel coordinates in `drawFunction` (`x`, `screenY`): a point carries its column and its sample value instead.
- The sample outcomes of `drawFunction` are inputs of `Pen.DrawFunction`: `fn.evaluate({x: x})` passes an object where `compile`'s function expects a number, and the value that comes back depends on IEEE arithmetic on that object.
- What the canvas makes of the pen calls: a `moveTo` or `lineTo` with a NaN or infinite coordinate is ignored by the canvas. So a NaN sample shows nothing at its column. Because the pen stays down after it, the next in-range column's `lineTo` joins across the gap: samples 1, throw, NaN, 1 join column 0 to column 3. The model stops at the pen calls.
- Pen.DrawFunction: a sample that never returns is not modelled. Such a sample makes the page hang at that column instead of producing a drawing.
- `parseInt` of the width field: `Graphs.Width` takes its result, a whole number or NaN, as given.
- The `alert` and `console.error` in `plotEquation`'s `catch`: `Engine.Compile` never throws, so that branch is never taken. It is kept in `Graphs.PlotEquation` as a branch that leaves the state unchanged.
- The `Error evaluating at x=` text shows `x` through the abstract `show`. JavaScript's string conversion of the object that `drawFunction` actually passes is not modelled.

=== FILE: engine.dfy ===
/**
  `evaluate(expr, scope)` and `math.compile(expr)` (math.js lines 3-54).

  The engine rewrites text: it deletes whitespace, replaces innermost groups
  by the text of their values until no `(` is left, makes one pass each for
  `^`, then `*` `/`, then `+` `-`, one pass per built-in function name, and
  finally resolves whatever text remains as a single token.
 */
module Engine {
  import opened Outcomes
  import opened Text
  import opened RegexReplace
  import opened Patterns
  import opened Parens
  import opened Resolver

  /**
    What evaluation runs against: the numbers (with `scope.x` inside), and
    what a built-in function call `name(inner)` is replaced by. The latter
    stays abstract: the lemmas below show it is never consulted.
   */
  datatype Env<!N> = Env(num: Numbers<N>, applyCall: (string, string) -> Outcome<FlatText>)

  /**
    The keys of the `functions` table, in insertion order. They are lower-case
    letters only, so the pattern built from each name matches it literally.
   */
  function Builtins(): (names: seq<string>)
    ensures |names| == 7
    ensures forall j, k :: 0 <= j < k < |names| ==> names[j] != names[k]
    ensures forall k, p :: 0 <= k < |names| && 0 <= p < |names[k]| ==> 'a' <= names[k][p] <= 'z'
  {
    var names := ["sin", "cos", "tan", "sqrt", "log", "abs", "exp"];
    assert forall k :: 0 <= k < |names| ==> names[k][0] in "sctlae";
    names
  }

  /** A value converted to text, as a replacement callback's return value is. */
  function Shown<N>(r: Outcome<N>, num: Numbers<N>): (t: Outcome<FlatText>)
    ensures t.Done? <==> r.Done?
    ensures t.Throws? ==> r == Throws(t.message)
    ensures r.Diverges? ==> t.Diverges?
  {
    var v :- r;
    Done(num.show(v))
  }

  /**
    The callback of an operator pass: resolve the left operand, then the
    right one (the left operand's error wins), combine, convert to text.
   */
  function ApplyBinary<N>(o: Operands, num: Numbers<N>): (r: Outcome<FlatText>)
    ensures !r.Diverges?
    ensures r.Throws? <==> Resolve(o.left, num).Throws? || Resolve(o.right, num).Throws?
    ensures Resolve(o.left, num).Throws? ==> r == Throws("Unknown token: " + o.left)
    ensures Resolve(o.left, num).Done? && Resolve(o.right, num).Throws? ==> r == Throws("Unknown token: " + o.right)
  {
    var a :- Resolve(o.left, num);
    var b :- Resolve(o.right, num);
    Done(num.show(num.arith(o.op, a, b)))
  }

  /** The callback of an operator pass, as `replace` receives it. */
  function OperatorText<N>(num: Numbers<N>): Operands -> Outcome<FlatText> {
    (o: Operands) => ApplyBinary(o, num)
  }

  /**
    A scan with the operator callback never hangs, since the callback never
    does, and creates no `(`, since the callback returns flat text.
   */
  lemma OperatorReplace<N>(ops: string, s: string, num: Numbers<N>)
    ensures var r := Replace(BinaryMatcher(ops), s, OperatorText(num));
      !r.Diverges? && (r.Done? && '(' !in s ==> '(' !in r.value)
  {
    ReplaceNeverHangs(BinaryMatcher(ops), s, 0, OperatorText(num));
    if '(' !in s {
      ReplaceKeepsNoOpen(BinaryMatcher(ops), s, 0, OperatorText(num));
    }
  }

  /** One operator pass: every leftmost `operand OP operand` replaced by the text of its value. */
  function BinaryPass<N>(ops: string, s: string, num: Numbers<N>): (r: Outcome<string>)
    ensures !r.Diverges?
    ensures r.Done? && '(' !in s ==> '(' !in r.value
  {
    OperatorReplace(ops, s, num);
    Replace(BinaryMatcher(ops), s, OperatorText(num))
  }

  /** The three operator passes, in their fixed order. */
  function Arithmetic<N>(s: string, num: Numbers<N>): (r: Outcome<string>)
    ensures !r.Diverges?
    ensures r.Done? && '(' !in s ==> '(' !in r.value
  {
    var a :- BinaryPass("^", s, num);
    var b :- BinaryPass("*/", a, num);
    BinaryPass("+-", b, num)
  }

  /** The callback of the pass for `name`, as `replace` receives it. */
  function CallText<N>(name: string, env: Env<N>): string -> Outcome<FlatText> {
    (inner: string) => env.applyCall(name, inner)
  }

  /** The call pattern matches nowhere in text without `(`, so a pass leaves such text as it is. */
  lemma CallReplaceUnchanged<N>(name: string, s: string, env: Env<N>)
    ensures '(' !in s ==> Replace(CallMatcher(name), s, CallText(name, env)) == Done(s)
  {
    if '(' !in s {
      forall p | 0 <= p < |s| ensures CallAt(name, s, p).None? {
        CallAtNeedsOpen(name, s, p);
      }
      ReplaceNoMatch(CallMatcher(name), s, 0, CallText(name, env));
    }
  }

  /** The pass for one built-in function name. */
  function CallPass<N>(name: string, s: string, env: Env<N>): (r: Outcome<string>)
    ensures '(' !in s ==> r == Done(s)
  {
    CallReplaceUnchanged(name, s, env);
    Replace(CallMatcher(name), s, CallText(name, env))
  }

  /** The passes for the names in `names`, in order. Without a `(` they change nothing. */
  function CallPasses<N>(names: seq<string>, s: string, env: Env<N>): (r: Outcome<string>)
    ensures '(' !in s ==> r == Done(s)
  {
    if names == [] then Done(s)
    else
      var t :- CallPass(names[0], s, env);
      CallPasses(names[1..], t, env)
  }

  /** Everything after the parenthesis loop: operator passes, function passes, `resolve`. */
  function Finish<N>(s: string, env: Env<N>): (r: Outcome<N>)
    ensures '(' !in s ==> !r.Diverges?
  {
    var c :- Arithmetic(s, env.num);
    var d :- CallPasses(Builtins(), c, env);
    Resolve(d, env.num)
  }

  /**
    `evaluate(inner, scope)` for the inner text of a group. The inner text
    holds no parenthesis, so the loop is skipped and the call cannot hang.
   */
  function EvaluateFlat<N>(t: FlatText, env: Env<N>): (r: Outcome<N>)
    ensures !r.Diverges?
  {
    Finish(StripWhitespace(t), env)
  }

  /** The callback of the parenthesis loop: the group's value as text. */
  function GroupText<N>(env: Env<N>): FlatText -> Outcome<FlatText> {
    (inner: FlatText) => Shown(EvaluateFlat(inner, env), env.num)
  }

  /** `evaluate(expr, scope)`. */
  function Evaluate<N>(expr: string, env: Env<N>): (r: Outcome<N>)
    ensures r.Done? ==> Count('(', StripWhitespace(expr)) <= Count(')', StripWhitespace(expr))
    ensures '(' !in expr ==> !r.Diverges?
  {
    var t :- ParenLoop(StripWhitespace(expr), GroupText(env));
    Finish(t, env)
  }

  /* ----- Properties of the engine ----- */

  /** Once no `(` is left, the function passes are skipped: the result is the arithmetic passes then `resolve`. */
  lemma FinishSkipsCalls<N>(s: string, env: Env<N>)
    requires '(' !in s
    ensures Finish(s, env) == (var c :- Arithmetic(s, env.num); Resolve(c, env.num))
  {
  }

  /**
    The built-in functions are never applied: whatever a call would be
    replaced by, `evaluate` gives the same outcome on every input. The loop
    exits only with no `(` left, and a call needs one.
   */
  lemma BuiltinsNeverApplied<N>(expr: string, env: Env<N>, g: (string, string) -> Outcome<FlatText>)
    ensures Evaluate(expr, env) == Evaluate(expr, env.(applyCall := g))
  {
    var env' := env.(applyCall := g);
    forall t: string | '(' !in t ensures Finish(t, env) == Finish(t, env') {
      FinishSkipsCalls(t, env);
      FinishSkipsCalls(t, env');
    }
    forall inner: FlatText ensures GroupText(env)(inner) == GroupText(env')(inner) {
      assert '(' !in StripWhitespace(inner);
    }
    ParenLoopCongruent(StripWhitespace(expr), GroupText(env), GroupText(env'));
  }

  /** A group's inner text is evaluated exactly as the whole input would be. */
  lemma EvaluateFlatAgrees<N>(t: FlatText, env: Env<N>)
    ensures EvaluateFlat(t, env) == Evaluate(t, env)
  {
    assert '(' !in StripWhitespace(t);
  }

  /** Whitespace anywhere in the input makes no difference. */
  lemma WhitespaceInsensitive<N>(expr: string, env: Env<N>)
    ensures Evaluate(expr, env) == Evaluate(StripWhitespace(expr), env)
  {
    StripIdempotent(expr);
  }

  /** When the parenthesis loop hangs on the stripped input, so does `evaluate`. */
  lemma EvaluateHangsWithLoop<N>(expr: string, env: Env<N>)
    requires ParenLoop(StripWhitespace(expr), GroupText(env)) == Diverges
    ensures Evaluate(expr, env) == Diverges
  {
  }

  /** An unclosed group makes `evaluate` hang rather than throw. */
  lemma UnclosedEvaluationHangs<N>(env: Env<N>)
    ensures Evaluate("(2+3", env) == Diverges
  {
    assert StripWhitespace("(2+3") == "(2+3" by {
      StripFixesClean("(2+3");
    }
    UnclosedGroupHangs(GroupText(env));
    EvaluateHangsWithLoop("(2+3", env);
  }

  /** So does an empty pair of parentheses. */
  lemma EmptyGroupEvaluationHangs<N>(env: Env<N>)
    ensures Evaluate("( )", env) == Diverges
  {
    assert StripWhitespace("( )") == "()" by {
      assert "( )"[1..] == " )" && " )"[1..] == ")";
      StripFixesClean(")");
    }
    EmptyGroupHangs(GroupText(env));
    EvaluateHangsWithLoop("( )", env);
  }

  /**
    An unclosed `(` can still end in an error instead of a hang: the sweep
    over `(a)(` evaluates the group `(a)` first, and `a` is an unknown token.
   */
  lemma EarlierGroupThrows<N>(env: Env<N>)
    ensures Evaluate("(a)(", env).Throws?
  {
    var s := "(a)(";
    assert StripWhitespace(s) == s by {
      forall k | 0 <= k < |s| ensures !IsWhitespace(s[k]) {
        assert s[k] in "(a)";
      }
      StripFixesClean(s);
    }
    GroupThrows(env);
  }

  /** The loop over `(a)(` throws with its first group. */
  lemma GroupThrows<N>(env: Env<N>)
    ensures ParenLoop("(a)(", GroupText(env)).Throws?
  {
    LetterGroupThrows(env);
    SweepThrows(GroupText(env));
  }

  /** The group's text `a` is an unknown token. */
  lemma LetterGroupThrows<N>(env: Env<N>)
    ensures GroupText(env)("a").Throws?
  {
    var inner: FlatText := "a";
    assert StripWhitespace(inner) == inner by {
      StripFixesClean(inner);
    }
    FinishLeadingLetter(inner, env);
  }

  /** A sweep over `(a)(` whose callback throws on `a` throws. */
  lemma SweepThrows(g: FlatText -> Outcome<FlatText>)
    requires g("a").Throws?
    ensures Replace(GroupMatcher(), "(a)(", g).Throws?
  {
    var s := "(a)(";
    var inner: FlatText := "a";
    GroupAtSpec(s, 0, 3, inner);
    assert GroupMatcher()(s, 0) == Some(Found(3, inner));
  }

  /** A pass that matches nowhere returns its subject. */
  lemma BinaryPassUnchanged<N>(ops: string, s: string, num: Numbers<N>)
    requires forall p :: 0 <= p < |s| ==> BinaryAt(ops, s, p).None?
    ensures BinaryPass(ops, s, num) == Done(s)
  {
    ReplaceNoMatch(BinaryMatcher(ops), s, 0, OperatorText(num));
  }

  /** A pass keeps a first character that cannot start an operand. */
  lemma BinaryPassKeepsHead<N>(ops: string, s: string, num: Numbers<N>)
    requires |s| > 0 && !IsNumChar(s[0]) && s[0] != 'x'
    ensures BinaryPass(ops, s, num).Done? ==> |BinaryPass(ops, s, num).value| > 0 && BinaryPass(ops, s, num).value[0] == s[0]
  {
    if BinaryPass(ops, s, num).Done? {
      ReplaceStep(BinaryMatcher(ops), s, 0, OperatorText(num));
      assert FirstSegment(BinaryMatcher(ops), s, 0) == Kept(0);
    }
  }

  /** The three passes keep a first character that cannot start an operand. */
  lemma ArithmeticKeepsHead<N>(s: string, num: Numbers<N>)
    requires |s| > 0 && !IsNumChar(s[0]) && s[0] != 'x'
    ensures Arithmetic(s, num).Done? ==> |Arithmetic(s, num).value| > 0 && Arithmetic(s, num).value[0] == s[0]
  {
    BinaryPassKeepsHead("^", s, num);
    var a := BinaryPass("^", s, num);
    if a.Done? {
      BinaryPassKeepsHead("*/", a.value, num);
      var b := BinaryPass("*/", a.value, num);
      if b.Done? {
        BinaryPassKeepsHead("+-", b.value, num);
      }
    }
  }

  /**
    Text that starts with a letter which begins neither a number, `x`, `e`
    nor `pi` ends in an error: the passes keep that letter in front, and
    `resolve` then finds no number.
   */
  lemma FinishLeadingLetter<N>(s: string, env: Env<N>)
    requires '(' !in s && |s| > 0 && BeginsNoToken(s[0])
    ensures Finish(s, env).Throws?
  {
    ArithmeticKeepsHead(s, env.num);
    var c := Arithmetic(s, env.num);
    if c.Done? {
      ResolveLeadingLetter(c.value, env.num);
    }
  }

  /** The group sweep over `sin(0)` replaces just `(0)`. */
  lemma SweepOfCall(g: FlatText -> Outcome<FlatText>)
    ensures g("0").Done? ==> Replace(GroupMatcher(), "sin(0)", g) == Done("sin" + g("0").value)
  {
    var s := "sin(0)";
    var m := GroupMatcher();
    var zero: FlatText := "0";
    GroupAtSpec(s, 3, 6, zero);
    assert s[0] != '(' && s[1] != '(' && s[2] != '(';
    assert m(s, 0).None? && m(s, 1).None? && m(s, 2).None?;
    assert m(s, 3) == Some(Found(6, zero));
    if g(zero).Done? {
      var v := g(zero).value;
      assert ReplaceFrom(m, s, 6, g) == Done([]);
      assert ReplaceFrom(m, s, 3, g) == Done(v + []);
      assert v + [] == v;
      assert ReplaceFrom(m, s, 2, g) == Done([s[2]] + v);
      assert ReplaceFrom(m, s, 1, g) == Done([s[1]] + ([s[2]] + v));
      assert ReplaceFrom(m, s, 0, g) == Done([s[0]] + ([s[1]] + ([s[2]] + v)));
      assert [s[0]] + ([s[1]] + ([s[2]] + v)) == "sin" + v;
    }
  }

  lemma CallTextIsClean()
    ensures StripWhitespace("sin(0)") == "sin(0)"
  {
    var s := "sin(0)";
    forall k | 0 <= k < |s| ensures !IsWhitespace(s[k]) {
      assert s[k] in "sin(0)";
    }
    StripFixesClean(s);
  }

  /** A lone digit evaluates to its literal. */
  lemma DigitEvaluates<N>(env: Env<N>)
    ensures EvaluateFlat("0", env) == Done(env.num.literal("0"))
  {
    var s := "0";
    assert OperandEnd(s, 0) == Some(1);
    EvaluateUnmatched(s, env);
    EvaluateFlatAgrees(s, env);
    ReadsDigit(env.num);
  }

  /**
    `sin(0)` is not the sine of 0: the group `(0)` becomes the text of 0,
    which leaves `sin` glued to a number, an unknown token.
   */
  lemma CallBecomesUnknownToken<N>(env: Env<N>)
    ensures Evaluate("sin(0)", env).Throws?
  {
    var g := GroupText(env);
    DigitEvaluates(env);
    var v := g("0").value;
    CallLoop(g, v);
    CallTextIsClean();
    FinishAfterName(v, env);
  }

  /** The loop over `sin(0)` stops after one sweep. */
  lemma CallLoop(g: FlatText -> Outcome<FlatText>, v: FlatText)
    requires g("0") == Done(v)
    ensures ParenLoop("sin(0)", g) == Done("sin" + v)
  {
    SweepOfCall(g);
    assert '(' !in "sin" + v && "sin(0)"[3] == '(';
    ParenLoopOneSweep("sin(0)", g, "sin" + v);
  }

  lemma FinishAfterName<N>(v: FlatText, env: Env<N>)
    ensures Finish("sin" + v, env).Throws?
  {
    var t := "sin" + v;
    assert t[0] == 's';
    FinishLeadingLetter(t, env);
  }

  /** Where no pass matches, text without parentheses or whitespace is resolved as it is. */
  lemma EvaluateUnmatched<N>(s: string, env: Env<N>)
    requires '(' !in s
    requires forall k :: 0 <= k < |s| ==> !IsWhitespace(s[k])
    requires forall p :: 0 <= p < |s| ==> BinaryAt("^", s, p).None? && BinaryAt("*/", s, p).None? && BinaryAt("+-", s, p).None?
    ensures Evaluate(s, env) == Resolve(s, env.num)
  {
    StripFixesClean(s);
    BinaryPassUnchanged("^", s, env.num);
    BinaryPassUnchanged("*/", s, env.num);
    BinaryPassUnchanged("+-", s, env.num);
  }

  lemma ProductWithConstantUnmatched()
    ensures forall k :: 0 <= k < |"2*pi"| ==> !IsWhitespace("2*pi"[k])
    ensures forall p :: 0 <= p < |"2*pi"| ==>
      BinaryAt("^", "2*pi", p).None? && BinaryAt("*/", "2*pi", p).None? && BinaryAt("+-", "2*pi", p).None?
  {
    var s := "2*pi";
    assert OperandEnd(s, 0) == Some(1);
    assert OperandEnd(s, 2).None?;
    forall k | 0 <= k < |s| ensures !IsWhitespace(s[k]) {
      assert s[k] in s;
    }
  }

  /** `2*pi` is `2`: `pi` is no operand, so no pass matches, and `parseFloat` ignores the rest. */
  lemma ConstantIsNoOperand<N>(env: Env<N>)
    ensures Evaluate("2*pi", env) == Done(env.num.literal("2"))
  {
    ProductWithConstantUnmatched();
    EvaluateUnmatched("2*pi", env);
    ReadsTwoOfProduct(env.num);
  }

  lemma StrayCloseUnmatched()
    ensures forall k :: 0 <= k < |"7)"| ==> !IsWhitespace("7)"[k])
    ensures forall p :: 0 <= p < |"7)"| ==>
      BinaryAt("^", "7)", p).None? && BinaryAt("*/", "7)", p).None? && BinaryAt("+-", "7)", p).None?
  {
    assert OperandEnd("7)", 0) == Some(1);
  }

  /** A stray `)` is never looked at: `7)` is `7`. */
  lemma StrayCloseIgnored<N>(env: Env<N>)
    ensures Evaluate("7)", env) == Done(env.num.literal("7"))
  {
    StrayCloseUnmatched();
    EvaluateUnmatched("7)", env);
    ReadsBeforeClose(env.num);
  }

  /* ----- math.compile ----- */

  /**
    The function `math.compile(expr)` returns. Compilation keeps the text
    and does nothing else, so it cannot fail; `fn.evaluate` is `fn` itself,
    one member here.
   */
  datatype Compiled = Compiled(source: string)

  /**
    `math.compile`: it wraps the text in a closure and evaluates nothing, so
    it never throws, whatever the text.
   */
  function Compile(expr: string): (r: Outcome<Compiled>)
    ensures r.Done? && r.value.source == expr
  {
    Done(Compiled(expr))
  }

  /**
    Calling a compiled function at `x`: `evaluate` with `scope.x` bound to
    `x`; an error comes back with the sample point in front of its message,
    a hang stays a hang.
   */
  function Call<N>(fn: Compiled, x: N, env: Env<N>): (r: Outcome<N>)
    ensures var inner := Evaluate(fn.source, env.(num := env.num.(x := x)));
      && (r.Done? <==> inner.Done?)
      && (r.Done? ==> r.value == inner.value)
      && (r.Diverges? <==> inner.Diverges?)
      && (r.Throws? ==> r.message == "Error evaluating at x=" + env.num.show(x) + ": " + inner.message)
  {
    match Evaluate(fn.source, env.(num := env.num.(x := x)))
    case Done(y) => Done(y)
    case Throws(message) => Throws("Error evaluating at x=" + env.num.show(x) + ": " + message)
    case Diverges => Diverges
  }

  /** Malformed text compiles: the problem shows only when the function is called. */
  lemma CompileDefersErrors<N>(x: N, env: Env<N>)
    ensures Compile("(2+3").Done? && Call(Compile("(2+3").value, x, env) == Diverges
    ensures Compile("sin(0)").Done? && Call(Compile("sin(0)").value, x, env).Throws?
  {
    UnclosedEvaluationHangs(env.(num := env.num.(x := x)));
    CallBecomesUnknownToken(env.(num := env.num.(x := x)));
  }
}

=== FILE: graphs.dfy ===
/**
  The graph list of the plotter (app.js lines 18-92): the state the
  event handlers `plotEquation`, `clearGraphs`, `updateLineColor` and
  `updateLineWidth` change. Redrawing after each change is left out; the
  state it reads is what is modelled here.
 */
module Graphs {
  import opened Outcomes
  import opened Text
  import opened Engine

  /** `parseInt` of the width field: a whole number of pixels, or NaN. */
  datatype Width = Pixels(n: int) | NotANumber

  /** One plotted equation with the style current when it was plotted. */
  datatype Graph = Graph(equation: string, fn: Compiled, color: string, lineWidth: Width)

  /** The handlers' shared state, with the text of the equation field. */
  datatype App = App(graphs: seq<Graph>, color: string, lineWidth: Width, input: string)

  /** The state when the page loads. */
  const Initial := App([], "#3366ff", Pixels(2), "")

  /** What the user can do: type into the field, plot, clear, or change the style. */
  datatype Event = Type(text: string) | Plot | Clear | SetColor(color: string) | SetWidth(width: Width)

  /** A stored graph holds a trimmed, non-blank equation compiled from that very text. */
  predicate WellFormed(g: Graph) {
    g.equation != [] && Trim(g.equation) == g.equation && g.fn.source == g.equation
  }

  predicate Valid(a: App) {
    forall k :: 0 <= k < |a.graphs| ==> WellFormed(a.graphs[k])
  }

  /**
    `plotEquation`: a blank field does nothing; otherwise the trimmed text
    is compiled and appended with the current style and the field is
    emptied. The `catch` keeps everything as it was, but compiling never
    throws, so it is never taken.
   */
  function PlotEquation(a: App): (b: App)
    ensures b.color == a.color && b.lineWidth == a.lineWidth
    ensures Trim(a.input) == [] <==> b == a
    ensures Trim(a.input) != [] ==>
      && |b.graphs| == |a.graphs| + 1 && b.graphs[..|a.graphs|] == a.graphs
      && b.graphs[|a.graphs|].equation == Trim(a.input) && b.graphs[|a.graphs|].fn.source == Trim(a.input)
      && b.graphs[|a.graphs|].color == a.color && b.graphs[|a.graphs|].lineWidth == a.lineWidth
      && b.input == []
    ensures Valid(a) ==> Valid(b)
  {
    var text := Trim(a.input);
    if text == [] then a
    else
      match Compile(text)
      case Done(fn) =>
        TrimIdempotent(a.input);
        var b := a.(graphs := a.graphs + [Graph(text, fn, a.color, a.lineWidth)], input := []);
        assert b.graphs[..|a.graphs|] == a.graphs;
        b
      case _ => a
  }

  /** One event; the style handlers only change what later plots will use. */
  function Step(a: App, e: Event): (b: App)
    ensures Valid(a) ==> Valid(b)
    ensures e != Clear ==> |a.graphs| <= |b.graphs| && b.graphs[..|a.graphs|] == a.graphs
    ensures !e.Plot? && e != Clear ==> b.graphs == a.graphs
    ensures e == Clear ==> b.graphs == []
    ensures e == Clear ==> b.color == a.color && b.lineWidth == a.lineWidth && b.input == a.input
    ensures e.Type? ==> b.input == e.text && b.color == a.color && b.lineWidth == a.lineWidth
    ensures e.SetColor? ==> b.color == e.color && b.lineWidth == a.lineWidth && b.input == a.input
    ensures e.SetWidth? ==> b.lineWidth == e.width && b.color == a.color && b.input == a.input
    ensures e.Plot? ==> b.color == a.color && b.lineWidth == a.lineWidth
  {
    match e
    case Type(text) => a.(input := text)
    case Plot => PlotEquation(a)
    case Clear => a.(graphs := [])
    case SetColor(color) => a.(color := color)
    case SetWidth(width) => a.(lineWidth := width)
  }

  /** A session: the events in the order they happen. */
  function Run(a: App, events: seq<Event>): App
    decreases |events|
  {
    if events == [] then a else Run(Step(a, events[0]), events[1..])
  }

  /* ----- Properties of a session ----- */

  /** Every graph ever stored is well formed. */
  lemma {:induction false} RunKeepsValid(a: App, events: seq<Event>)
    requires Valid(a)
    ensures Valid(Run(a, events))
    decreases |events|
  {
    if events != [] {
      RunKeepsValid(Step(a, events[0]), events[1..]);
    }
  }

  /** Without a clear, graphs are only ever appended: none is removed, reordered or restyled. */
  lemma {:induction false} RunWithoutClearAppends(a: App, events: seq<Event>)
    requires forall k :: 0 <= k < |events| ==> events[k] != Clear
    ensures var b := Run(a, events);
      |a.graphs| <= |b.graphs| && b.graphs[..|a.graphs|] == a.graphs
    decreases |events|
  {
    if events != [] {
      var a' := Step(a, events[0]);
      RunWithoutClearAppends(a', events[1..]);
      var b := Run(a, events);
      assert b == Run(a', events[1..]);
      assert b.graphs[..|a.graphs|] == b.graphs[..|a'.graphs|][..|a.graphs|];
    }
  }

  /** Sessions compose: running two event lists is running their concatenation. */
  lemma {:induction false} RunConcat(a: App, xs: seq<Event>, ys: seq<Event>)
    ensures Run(a, xs + ys) == Run(Run(a, xs), ys)
    decreases |xs|
  {
    if xs == [] {
      assert xs + ys == ys;
    } else {
      assert (xs + ys)[0] == xs[0];
      assert (xs + ys)[1..] == xs[1..] + ys;
      RunConcat(Step(a, xs[0]), xs[1..], ys);
    }
  }

  /** After a clear, the list holds exactly what was plotted since. */
  lemma ClearForgets(a: App, before: seq<Event>, after: seq<Event>)
    ensures Run(a, before + [Clear] + after).graphs
         == Run(Run(a, before).(graphs := []), after).graphs
  {
    RunConcat(a, before + [Clear], after);
    RunConcat(a, before, [Clear]);
  }

  /** The colour of the last colour change in a session, else the one it started with. */
  function LatestColor(initial: string, events: seq<Event>): string {
    if events == [] then initial
    else if events[|events| - 1].SetColor? then events[|events| - 1].color
    else LatestColor(initial, events[..|events| - 1])
  }

  /** The width of the last width change in a session, else the one it started with. */
  function LatestWidth(initial: Width, events: seq<Event>): Width {
    if events == [] then initial
    else if events[|events| - 1].SetWidth? then events[|events| - 1].width
    else LatestWidth(initial, events[..|events| - 1])
  }

  /** The current style is always the one the latest change chose. */
  lemma {:induction false} RunStyle(a: App, events: seq<Event>)
    ensures Run(a, events).color == LatestColor(a.color, events)
    ensures Run(a, events).lineWidth == LatestWidth(a.lineWidth, events)
    decreases |events|
  {
    if events != [] {
      var init := events[..|events| - 1];
      var last := events[|events| - 1];
      assert events == init + [last];
      RunStyle(a, init);
      RunConcat(a, init, [last]);
      assert Run(Run(a, init), [last]) == Step(Run(a, init), last) by {
        assert [last][1..] == [];
      }
    }
  }

  /**
    A session from page load: every stored graph is well formed, and the
    style is the default `#3366ff` at 2 pixels until a change replaces it.
   */
  lemma PageSession(events: seq<Event>)
    ensures Valid(Run(Initial, events))
    ensures Run(Initial, events).color == LatestColor("#3366ff", events)
    ensures Run(Initial, events).lineWidth == LatestWidth(Pixels(2), events)
  {
    RunKeepsValid(Initial, events);
    RunStyle(Initial, events);
  }

  /**
    Typing a non-blank equation and plotting appends exactly one graph: the
    trimmed text, compiled, in the colour and width of the latest changes.
   */
  lemma PlotUsesLatestStyle(a: App, events: seq<Event>, text: string)
    requires Trim(text) != []
    ensures var before := Run(a, events);
      var after := Run(a, events + [Type(text), Plot]);
      && |after.graphs| == |before.graphs| + 1
      && after.graphs[..|before.graphs|] == before.graphs
      && after.graphs[|before.graphs|]
         == Graph(Trim(text), Compiled(Trim(text)), LatestColor(a.color, events), LatestWidth(a.lineWidth, events))
  {
    var before := Run(a, events);
    RunConcat(a, events, [Type(text), Plot]);
    RunStyle(a, events);
    TypeThenPlot(before, text);
  }

  /** Typing then plotting is plotting the typed text. */
  lemma TypeThenPlot(a: App, text: string)
    ensures Run(a, [Type(text), Plot]) == PlotEquation(a.(input := text))
  {
    var evs := [Type(text), Plot];
    assert evs[1..] == [Plot] && evs[1..][1..] == [];
    var typed := Step(a, Type(text));
    assert Run(a, evs) == Run(typed, [Plot]);
    assert Run(typed, [Plot]) == Run(Step(typed, Plot), []);
  }

  /** Pressing plot twice adds one graph: the first press empties the field. */
  lemma PlotTwiceIsOnce(a: App)
    ensures Step(Step(a, Plot), Plot) == Step(a, Plot)
  {
    if Trim(a.input) != [] {
      assert Step(a, Plot).input == [];
      assert Trim([]) == [];
    }
  }

  /** Typing a blank equation and plotting leaves the graphs as they were. */
  lemma BlankIsIgnored(a: App, text: string)
    requires forall p :: 0 <= p < |text| ==> IsWhitespace(text[p])
    ensures Run(a, [Type(text), Plot]).graphs == a.graphs
  {
    assert Trim(text) == [];
    var events := [Type(text), Plot];
    assert events[1..] == [Plot] && events[1..][1..] == [];
    var typed := Step(a, Type(text));
    assert Run(a, events) == Run(typed, [Plot]);
    assert Run(typed, [Plot]) == Run(Step(typed, Plot), []);
  }

  /**
    A malformed equation is accepted and stored; calling it never returns,
    so the redraw after the plot does not return either.
   */
  lemma MalformedIsPlotted<N>(a: App, x: N, env: Env<N>)
    requires a.input == "(2+3"
    ensures var b := Step(a, Plot);
      |b.graphs| == |a.graphs| + 1 && Call(b.graphs[|a.graphs|].fn, x, env) == Diverges
  {
    assert "(2+3"[0] == '(';
    assert "(2+3"[3] == '3';
    TrimFixesTrimmed("(2+3");
    CompileDefersErrors(x, env);
  }
}

=== FILE: outcomes.dfy ===
/**
  Result shapes shared by the model.

  JavaScript code either returns a value, throws an `Error` whose message the
  callers read, or never returns at all (an endless `while`). `Outcome` names
  the three, and is failure-compatible so that `:-` propagates a throw or a
  hang exactly as an uncaught exception or a stuck loop propagates in the source.
 */
module Outcomes {

  datatype Option<+T> = None | Some(value: T)

  datatype Outcome<+T> = Done(value: T) | Throws(message: string) | Diverges {

    predicate IsFailure() {
      !Done?
    }

    function PropagateFailure<U>(): (r: Outcome<U>)
      requires !Done?
      ensures r.Throws? <==> Throws?
      ensures r.Diverges? <==> Diverges?
    {
      if Throws? then Throws(message) else Diverges
    }

    function Extract(): T
      requires Done?
    {
      value
    }
  }
}

=== FILE: parens.dfy ===
/**
  The parenthesis loop of `evaluate` (math.js lines 21-23):

      while (expr.includes('(')) expr = expr.replace(/\(([^()]+)\)/g, cb);

  Every innermost non-empty group is replaced in one sweep by the text its
  callback returns. The loop exits only once no `(` is left; when a `(`
  remains but no group matches, the replacement is the identity and the loop
  spins forever, which the model reports as `Diverges`.
 */
module Parens {
  import opened Outcomes
  import opened Text
  import opened RegexReplace
  import opened Patterns

  /** A matched group holds exactly one `(` and one `)`. */
  lemma GroupSpanCounts(s: string, i: nat)
    requires GroupAt(s, i).Some?
    ensures var e := GroupAt(s, i).value.end;
      && Count('(', s[i..]) == 1 + Count('(', s[e..])
      && Count(')', s[i..]) == 1 + Count(')', s[e..])
  {
    var Found(e, inner) := GroupAt(s, i).value;
    GroupAtSpec(s, i, e, inner);
    var span := ['('] + inner + [')'];
    assert s[i..] == span + s[e..];
    CountConcat('(', span, s[e..]);
    CountConcat(')', span, s[e..]);
    CountConcat('(', ['('] + inner, [')']);
    CountConcat(')', ['('] + inner, [')']);
    CountConcat('(', ['('], inner);
    CountConcat(')', ['('], inner);
  }

  /** One sweep removes one `(` and one `)` per group it replaces. */
  lemma {:induction false} GroupSweepCounts(s: string, i: nat, f: FlatText -> Outcome<FlatText>)
    requires i <= |s|
    ensures var r := ReplaceFrom(GroupMatcher(), s, i, f);
      var n := MatchCount(Segments(GroupMatcher(), s, i));
      r.Done? ==>
        && Count('(', r.value) + n == Count('(', s[i..])
        && Count(')', r.value) + n == Count(')', s[i..])
    decreases |s| - i
  {
    var m := GroupMatcher();
    var r := ReplaceFrom(m, s, i, f);
    if i < |s| && r.Done? {
      ReplaceStep(m, s, i, f);
      MatchCountStep(m, s, i);
      var seg := FirstSegment(m, s, i);
      GroupSweepCounts(s, seg.Stop(), f);
      FirstSegmentCounts(s, i, f);
      var head := SegmentText(s, seg, f).value;
      var rest := ReplaceFrom(m, s, seg.Stop(), f).value;
      CountConcat('(', head, rest);
      CountConcat(')', head, rest);
    }
  }

  /** The text of the first segment accounts for its span's parentheses, less one pair for a group. */
  lemma FirstSegmentCounts(s: string, i: nat, f: FlatText -> Outcome<FlatText>)
    requires i < |s|
    ensures var seg := FirstSegment(GroupMatcher(), s, i);
      var t := SegmentText(s, seg, f);
      var g := if seg.Matched? then 1 else 0;
      t.Done? ==>
        && Count('(', t.value) + g + Count('(', s[seg.Stop()..]) == Count('(', s[i..])
        && Count(')', t.value) + g + Count(')', s[seg.Stop()..]) == Count(')', s[i..])
  {
    var seg := FirstSegment(GroupMatcher(), s, i);
    if seg.Kept? {
      assert s[i..] == [s[i]] + s[i + 1..];
      CountConcat('(', [s[i]], s[i + 1..]);
      CountConcat(')', [s[i]], s[i + 1..]);
    } else {
      GroupSpanCounts(s, i);
    }
  }

  /**
    One iteration of the loop body: when a group exists, every `(` count drops
    by the number of groups replaced (at least one); when none exists, the
    text comes back unchanged.
   */
  lemma GroupStep(s: string, f: FlatText -> Outcome<FlatText>)
    ensures var r := Replace(GroupMatcher(), s, f);
      r.Done? ==>
        && (HasGroup(s) ==> Count('(', r.value) < Count('(', s))
        && (!HasGroup(s) ==> r.value == s)
        && Count('(', r.value) - Count(')', r.value) == Count('(', s) - Count(')', s)
  {
    GroupSweepCounts(s, 0, f);
    if HasGroup(s) {
      var p :| 0 <= p < |s| && GroupAt(s, p).Some?;
      MatchesFound(GroupMatcher(), s, 0, p);
    } else {
      ReplaceNoMatch(GroupMatcher(), s, 0, f);
    }
  }

  /** No group starts strictly inside another: its inner text holds no parenthesis, and it ends in `)`. */
  lemma NoGroupInside(s: string, i: nat, p: nat)
    requires GroupAt(s, i).Some? && i < p < GroupAt(s, i).value.end
    ensures GroupAt(s, p).None?
  {
    var Found(e, inner) := GroupAt(s, i).value;
    GroupAtSpec(s, i, e, inner);
    if p < e - 1 {
      assert s[p] == inner[p - i - 1];
    }
  }

  /** The segment `seg` is one of `segs`. */
  ghost predicate HasSegment(segs: seq<Segment<FlatText>>, seg: Segment<FlatText>) {
    exists k :: 0 <= k < |segs| && segs[k] == seg
  }

  /**
    One sweep replaces every innermost non-empty group: each position from
    `i` on where the group pattern matches is a match of the scan, with that
    very span and inner text.
   */
  lemma {:induction false} EveryGroupMatched(s: string, i: nat, p: nat)
    requires i <= p < |s| && GroupAt(s, p).Some?
    ensures HasSegment(Segments(GroupMatcher(), s, i), Matched(p, GroupAt(s, p).value.end, GroupAt(s, p).value.captures))
    decreases |s| - i
  {
    var m := GroupMatcher();
    var segs := Segments(m, s, i);
    var target := Matched(p, GroupAt(s, p).value.end, GroupAt(s, p).value.captures);
    if p == i {
      assert m(s, i) == GroupAt(s, i);
      assert segs == [target] + Segments(m, s, target.end);
      assert segs[0] == target;
    } else {
      var seg := FirstSegment(m, s, i);
      var rest := Segments(m, s, seg.Stop());
      assert segs == [seg] + rest;
      if seg.Matched? && p < seg.Stop() {
        NoGroupInside(s, i, p);
        assert false;
      }
      EveryGroupMatched(s, seg.Stop(), p);
      var k :| 0 <= k < |rest| && rest[k] == target;
      assert segs[k + 1] == target;
    }
  }

  /**
    The loop body replaces every innermost group at once: its result is the
    splicing of the sweep's segments, and every group of the text is one of them.
   */
  lemma SweepReplacesEveryGroup(s: string, f: FlatText -> Outcome<FlatText>, p: nat)
    requires p < |s| && GroupAt(s, p).Some?
    ensures Replace(GroupMatcher(), s, f) == Render(s, Segments(GroupMatcher(), s, 0), f)
    ensures HasSegment(Segments(GroupMatcher(), s, 0), Matched(p, GroupAt(s, p).value.end, GroupAt(s, p).value.captures))
  {
    ReplaceIsTwoPhase(GroupMatcher(), s, 0, f);
    EveryGroupMatched(s, 0, p);
  }

  /** `while (expr.includes('(')) expr = expr.replace(group, f)`. */
  function ParenLoop(s: string, f: FlatText -> Outcome<FlatText>): (r: Outcome<string>)
    ensures r.Done? ==> '(' !in r.value
    ensures r.Done? ==> Count(')', r.value) + Count('(', s) == Count(')', s)
    decreases Count('(', s)
  {
    if '(' !in s then Done(s)
    else
      var t :- Replace(GroupMatcher(), s, f);
      GroupStep(s, f);
      if t == s then Diverges else ParenLoop(t, f)
  }

  /** A `(` left with no innermost non-empty group after it makes the loop spin forever. */
  lemma ParenLoopStuck(s: string, f: FlatText -> Outcome<FlatText>)
    requires '(' in s && !HasGroup(s)
    ensures ParenLoop(s, f) == Diverges
  {
    GroupStep(s, f);
    ReplaceNoMatch(GroupMatcher(), s, 0, f);
    assert s[0..] == s;
  }

  /**
    More `(` than `)` can never be resolved: each sweep removes them in pairs,
    and the loop exits only with no `(` left. So unbalanced input hangs
    (or throws inside some group), whatever the groups evaluate to.
   */
  lemma UnclosedNeverExits(s: string, f: FlatText -> Outcome<FlatText>)
    requires Count('(', s) > Count(')', s)
    ensures !ParenLoop(s, f).Done?
  {
  }

  lemma UnclosedGroupHangs(f: FlatText -> Outcome<FlatText>)
    ensures ParenLoop("(2+3", f) == Diverges
  {
    var s := "(2+3";
    assert NextParen(s, 1) == 4;
    forall p | 0 <= p < |s| ensures GroupAt(s, p).None? {
      assert p > 0 ==> s[p] != '(';
    }
    ParenLoopStuck(s, f);
  }

  lemma EmptyGroupHangs(f: FlatText -> Outcome<FlatText>)
    ensures ParenLoop("()", f) == Diverges
  {
    var s := "()";
    assert NextParen(s, 1) == 1;
    assert GroupAt(s, 0).None? && GroupAt(s, 1).None?;
    ParenLoopStuck(s, f);
  }

  /** The loop depends on the group callback only through the values it returns. */
  lemma {:induction false} ParenLoopCongruent(s: string, f: FlatText -> Outcome<FlatText>, g: FlatText -> Outcome<FlatText>)
    requires forall c :: f(c) == g(c)
    ensures ParenLoop(s, f) == ParenLoop(s, g)
    decreases Count('(', s)
  {
    if '(' in s {
      ReplaceCongruent(GroupMatcher(), s, 0, f, g);
      var r := Replace(GroupMatcher(), s, f);
      if r.Done? && r.value != s {
        GroupStep(s, f);
        ParenLoopCongruent(r.value, f, g);
      }
    }
  }

  /** A sweep that leaves no `(` behind ends the loop. */
  lemma ParenLoopOneSweep(s: string, f: FlatText -> Outcome<FlatText>, t: string)
    requires '(' in s && Replace(GroupMatcher(), s, f) == Done(t) && '(' !in t
    ensures ParenLoop(s, f) == Done(t)
  {
    assert t != s;
  }
}

=== FILE: patterns.dfy ===
/**
  The regular expressions of math.js as matchers.

  - `\(([^()]+)\)`            a group with no parenthesis inside (line 22);
  - `([\d.]+|x)OP([\d.]+|x)`  one binary operation, OP one of `^`, `[*\/]`,
                              `[+-]` (lines 26, 30, 34);
  - `name\(([^)]+)\)`         a call of a built-in function (line 49).

  Each matcher is written the way the backtracking regex engine resolves it:
  a greedy class followed by a character it excludes can never profit from
  backtracking, so the greedy run is the only candidate.
 */
module Patterns {
  import opened Outcomes
  import opened Text
  import opened RegexReplace

  /* ----- Scanning helpers ----- */

  /** First index at or after `j` holding `(` or `)`, or `|s|`. */
  function NextParen(s: string, j: nat): (k: nat)
    requires j <= |s|
    ensures j <= k <= |s|
    ensures k < |s| ==> s[k] == '(' || s[k] == ')'
    ensures forall p :: j <= p < k ==> s[p] != '(' && s[p] != ')'
    decreases |s| - j
  {
    if j == |s| || s[j] == '(' || s[j] == ')' then j else NextParen(s, j + 1)
  }

  /** First index at or after `j` holding `)`, or `|s|`. */
  function NextClose(s: string, j: nat): (k: nat)
    requires j <= |s|
    ensures j <= k <= |s|
    ensures k < |s| ==> s[k] == ')'
    ensures forall p :: j <= p < k ==> s[p] != ')'
    decreases |s| - j
  {
    if j == |s| || s[j] == ')' then j else NextClose(s, j + 1)
  }

  /** End of the maximal `[\d.]` run starting at `j`. */
  function RunEnd(s: string, j: nat): (k: nat)
    requires j <= |s|
    ensures j <= k <= |s|
    ensures k < |s| ==> !IsNumChar(s[k])
    ensures forall p :: j <= p < k ==> IsNumChar(s[p])
    decreases |s| - j
  {
    if j < |s| && IsNumChar(s[j]) then RunEnd(s, j + 1) else j
  }

  lemma RunEndOfNumChars(s: string, j: nat, k: nat)
    requires j <= k <= |s|
    requires forall p :: j <= p < k ==> IsNumChar(s[p])
    requires k == |s| || !IsNumChar(s[k])
    ensures RunEnd(s, j) == k
    decreases k - j
  {
    if j < k {
      RunEndOfNumChars(s, j + 1, k);
    }
  }

  /* ----- Groups ----- */

  function GroupAt(s: string, i: nat): (r: Option<Found<FlatText>>)
    ensures r.Some? ==> i < r.value.end <= |s|
  {
    if i < |s| && s[i] == '(' then
      var k := NextParen(s, i + 1);
      if k < |s| && s[k] == ')' && k >= i + 2 then
        var inner: string := s[i + 1..k];
        assert NoParens(inner) by {
          forall p | 0 <= p < |inner| ensures inner[p] != '(' && inner[p] != ')' {
            assert inner[p] == s[i + 1 + p];
          }
        }
        var flat: FlatText := inner;
        Some(Found(k + 1, flat))
      else None
    else None
  }

  function GroupMatcher(): (m: Matcher<FlatText>)
    ensures MatcherOk(m)
    ensures forall s, i :: m(s, i) == GroupAt(s, i)
  {
    GroupAt
  }

  /** A group match is exactly a `(`, one or more characters that are not parentheses, and a `)`. */
  lemma GroupAtSpec(s: string, i: nat, e: nat, inner: string)
    ensures GroupAt(s, i).Some? && GroupAt(s, i).value.end == e && GroupAt(s, i).value.captures == inner
      <==> (i + 3 <= e <= |s| && s[i] == '(' && s[e - 1] == ')'
            && inner == s[i + 1..e - 1] && NoParens(inner))
  {
    if i + 3 <= e <= |s| && s[i] == '(' && s[e - 1] == ')' && inner == s[i + 1..e - 1] && NoParens(inner) {
      forall p | i + 1 <= p < e - 1 ensures s[p] != '(' && s[p] != ')' {
        assert s[p] == inner[p - i - 1];
      }
      assert NextParen(s, i + 1) == e - 1;
    }
  }

  /** An innermost non-empty group occurs somewhere in `s`. */
  ghost predicate HasGroup(s: string) {
    exists i :: 0 <= i < |s| && GroupAt(s, i).Some?
  }

  /* ----- Binary operations ----- */

  /** The captures of a binary operation: left operand, operator, right operand. */
  datatype Operands = Operands(left: string, op: char, right: string)

  /** What `([\d.]+|x)` admits as a whole. */
  predicate IsOperand(w: string) {
    w == "x" || (|w| > 0 && forall p :: 0 <= p < |w| ==> IsNumChar(w[p]))
  }

  /** End of the operand `([\d.]+|x)` starting at `i`: a maximal number run, else a single `x`. */
  function OperandEnd(s: string, i: nat): (r: Option<nat>)
    ensures r.Some? ==> i < r.value <= |s|
  {
    if i < |s| && IsNumChar(s[i]) then Some(RunEnd(s, i))
    else if i < |s| && s[i] == 'x' then Some(i + 1)
    else None
  }

  function BinaryAt(ops: string, s: string, i: nat): (r: Option<Found<Operands>>)
    ensures r.Some? ==> i < r.value.end <= |s|
  {
    match OperandEnd(s, i)
    case None => None
    case Some(k) =>
      if k < |s| && s[k] in ops then
        match OperandEnd(s, k + 1)
        case None => None
        case Some(e) => Some(Found(e, Operands(s[i..k], s[k], s[k + 1..e])))
      else None
  }

  function BinaryMatcher(ops: string): (m: Matcher<Operands>)
    ensures MatcherOk(m)
    ensures forall s, i :: m(s, i) == BinaryAt(ops, s, i)
  {
    (s: string, i: nat) => BinaryAt(ops, s, i)
  }

  /** The operand read at `i` is a whole operand, and a number operand stops where the run stops. */
  lemma OperandEndSound(s: string, i: nat)
    requires OperandEnd(s, i).Some?
    ensures var k := OperandEnd(s, i).value;
      IsOperand(s[i..k]) && (k == |s| || s[i..k] == "x" || !IsNumChar(s[k]))
  {
    var k := OperandEnd(s, i).value;
    if !IsNumChar(s[i]) {
      assert s[i..k] == "x";
    }
  }

  /** Conversely, an operand at `i` that is not cut short is what `OperandEnd` reads. */
  lemma OperandEndComplete(s: string, i: nat, w: string)
    requires IsOperand(w) && i + |w| <= |s| && s[i..i + |w|] == w
    requires i + |w| == |s| || w == "x" || !IsNumChar(s[i + |w|])
    ensures OperandEnd(s, i) == Some(i + |w|)
  {
    assert s[i] == w[0];
    if w != "x" {
      forall p | i <= p < i + |w| ensures IsNumChar(s[p]) {
        assert s[p] == w[p - i];
      }
      RunEndOfNumChars(s, i, i + |w|);
    }
  }

  /** Operators are never number characters. */
  predicate OperatorSet(ops: string) {
    forall p :: 0 <= p < |ops| ==> !IsNumChar(ops[p])
  }

  /** A binary match is an operand, one operator of `ops`, and an operand not cut short. */
  lemma BinaryAtSound(ops: string, s: string, i: nat)
    requires BinaryAt(ops, s, i).Some?
    ensures var Found(e, Operands(a, op, b)) := BinaryAt(ops, s, i).value;
      && e == i + |a| + 1 + |b| <= |s| && s[i..e] == a + [op] + b
      && IsOperand(a) && op in ops && IsOperand(b)
      && (e == |s| || b == "x" || !IsNumChar(s[e]))
  {
    var k := OperandEnd(s, i).value;
    assert k < |s| && s[k] in ops && OperandEnd(s, k + 1).Some?;
    var e := OperandEnd(s, k + 1).value;
    assert BinaryAt(ops, s, i).value == Found(e, Operands(s[i..k], s[k], s[k + 1..e]));
    OperandEndSound(s, i);
    OperandEndSound(s, k + 1);
    SliceAround(s, i, k, e);
  }

  lemma SliceAround(s: string, i: nat, k: nat, e: nat)
    requires i <= k < e <= |s|
    ensures s[i..e] == s[i..k] + [s[k]] + s[k + 1..e]
  {
  }

  /** Every such text at `i` is matched there, with exactly these captures. */
  lemma BinaryAtComplete(ops: string, s: string, i: nat, a: string, op: char, b: string)
    requires OperatorSet(ops)
    requires i + |a| + 1 + |b| <= |s| && s[i..i + |a| + 1 + |b|] == a + [op] + b
    requires IsOperand(a) && op in ops && IsOperand(b)
    requires var e := i + |a| + 1 + |b|; e == |s| || b == "x" || !IsNumChar(s[e])
    ensures BinaryAt(ops, s, i) == Some(Found(i + |a| + 1 + |b|, Operands(a, op, b)))
  {
    var k := i + |a|;
    SplitAtOperator(s, i, a, op, b);
    assert !IsNumChar(op) by {
      var q :| 0 <= q < |ops| && ops[q] == op;
    }
    OperandEndComplete(s, i, a);
    OperandEndComplete(s, k + 1, b);
  }

  lemma SplitAtOperator(s: string, i: nat, a: string, op: char, b: string)
    requires i + |a| + 1 + |b| <= |s| && s[i..i + |a| + 1 + |b|] == a + [op] + b
    ensures var k := i + |a|;
      s[i..k] == a && s[k] == op && s[k + 1..k + 1 + |b|] == b
  {
    var k := i + |a|;
    var w := a + [op] + b;
    assert w[..|a|] == a && w[|a|] == op && w[|a| + 1..] == b;
  }

  /** Inside a number run, a match one character later would also have matched here. */
  lemma BinaryAtInsideRun(ops: string, s: string, i: nat)
    requires i + 1 < |s|
    ensures IsNumChar(s[i]) && IsNumChar(s[i + 1]) && BinaryAt(ops, s, i + 1).Some? ==> BinaryAt(ops, s, i).Some?
  {
    if IsNumChar(s[i]) && IsNumChar(s[i + 1]) {
      assert RunEnd(s, i) == RunEnd(s, i + 1);
    }
  }

  /** A match that ends on a number character ends where the number run ends. */
  lemma BinaryAtEndsWhole(ops: string, s: string, i: nat)
    requires BinaryAt(ops, s, i).Some?
    ensures var e := BinaryAt(ops, s, i).value.end; e < |s| && IsNumChar(s[e - 1]) ==> !IsNumChar(s[e])
  {
    var k := OperandEnd(s, i).value;
    OperandEndSound(s, k + 1);
  }

  /** A match that starts on a number character does not start inside a longer run. */
  predicate StartsWhole<C>(s: string, seg: Segment<C>) {
    seg.Matched? && 0 < seg.at < |s| && IsNumChar(s[seg.at]) ==> !IsNumChar(s[seg.at - 1])
  }

  /**
    In the scan of a subject, a match never begins in the middle of a number:
    the left operand of every binary match is a whole `[\d.]` run. With the
    right operand taken whole too, an operand is a maximal run or a single `x`.
   */
  lemma BinaryLeftMaximal(ops: string, s: string, i: nat)
    requires i <= |s|
    requires 0 < i < |s| && IsNumChar(s[i - 1]) && IsNumChar(s[i]) ==> BinaryAt(ops, s, i).None?
    ensures var segs := Segments(BinaryMatcher(ops), s, i);
      forall k :: 0 <= k < |segs| ==> StartsWhole(s, segs[k])
  {
    var m := BinaryMatcher(ops);
    SegmentsTile(m, s, i);
    TiledStartsWhole(ops, s, i, Segments(m, s, i));
  }

  lemma TiledStartsWhole(ops: string, s: string, i: nat, segs: seq<Segment<Operands>>)
    requires Tiles(s, i, segs)
    requires forall k :: 0 <= k < |segs| ==> Agrees(BinaryMatcher(ops), s, segs[k])
    requires 0 < i < |s| && IsNumChar(s[i - 1]) && IsNumChar(s[i]) ==> BinaryAt(ops, s, i).None?
    ensures forall k :: 0 <= k < |segs| ==> StartsWhole(s, segs[k])
  {
    forall k | 0 <= k < |segs| ensures StartsWhole(s, segs[k]) {
      if k == 0 {
        StartsWholeFirst(ops, s, i, segs[0]);
      } else {
        assert segs[k - 1].Stop() == segs[k].at;
        StartsWholeAfter(ops, s, segs[k - 1], segs[k]);
      }
    }
  }

  lemma StartsWholeFirst(ops: string, s: string, i: nat, seg: Segment<Operands>)
    requires Agrees(BinaryMatcher(ops), s, seg) && seg.at == i
    requires 0 < i < |s| && IsNumChar(s[i - 1]) && IsNumChar(s[i]) ==> BinaryAt(ops, s, i).None?
    ensures StartsWhole(s, seg)
  {
  }

  lemma StartsWholeAfter(ops: string, s: string, prev: Segment<Operands>, seg: Segment<Operands>)
    requires Agrees(BinaryMatcher(ops), s, prev) && Agrees(BinaryMatcher(ops), s, seg)
    requires prev.at < prev.Stop() == seg.at < |s|
    ensures StartsWhole(s, seg)
  {
    NoMatchInsideRun(ops, s, prev);
  }

  /** Right after a segment of the scan, no match starts inside a number run. */
  lemma NoMatchInsideRun(ops: string, s: string, prev: Segment<Operands>)
    requires Agrees(BinaryMatcher(ops), s, prev) && prev.at < prev.Stop() < |s|
    ensures var at := prev.Stop();
      IsNumChar(s[at - 1]) && IsNumChar(s[at]) ==> BinaryAt(ops, s, at).None?
  {
    match prev
    case Kept(p) =>
      BinaryAtInsideRun(ops, s, p);
    case Matched(p, _, _) =>
      BinaryAtEndsWhole(ops, s, p);
  }

  /**
    The passes reduce only what they find in one sweep: in `2^3^2` the
    exponent pass replaces the leftmost `2^3` and copies `^2`, whatever the
    callback returns.
   */
  lemma PowerSweepLeftmostOnly(f: Operands -> Outcome<FlatText>)
    ensures Replace(BinaryMatcher("^"), "2^3^2", f) ==
      match f(Operands("2", '^', "3"))
      case Done(t) => Done(t + "^2")
      case Throws(msg) => Throws(msg)
      case Diverges => Diverges
  {
    var s := "2^3^2";
    var m := BinaryMatcher("^");
    assert RunEnd(s, 4) == 5;
    assert RunEnd(s, 2) == 3;
    assert RunEnd(s, 0) == 1;
    assert s[0..1] == "2" && s[2..3] == "3";
    assert m(s, 0) == Some(Found(3, Operands("2", '^', "3")));
    assert m(s, 3).None?;
    assert m(s, 4).None?;
    ReplaceNoMatch(m, s, 3, f);
    assert s[3..] == "^2";
  }

  /* ----- Function calls ----- */

  function CallAt(name: string, s: string, i: nat): (r: Option<Found<string>>)
    ensures r.Some? ==> i < r.value.end <= |s|
  {
    var open := i + |name|;
    if open < |s| && s[i..open] == name && s[open] == '(' then
      var k := NextClose(s, open + 1);
      if k < |s| && k >= open + 2 then Some(Found(k + 1, s[open + 1..k])) else None
    else None
  }

  function CallMatcher(name: string): (m: Matcher<string>)
    ensures MatcherOk(m)
    ensures forall s, i :: m(s, i) == CallAt(name, s, i)
  {
    (s: string, i: nat) => CallAt(name, s, i)
  }

  /**
    A call match is exactly the name, a `(`, one or more characters that are
    not `)`, and a `)`: the greedy `[^)]+` stops at the first `)`, so the
    inner text may hold `(` but never `)`.
   */
  lemma CallAtSpec(name: string, s: string, i: nat, e: nat, inner: string)
    ensures CallAt(name, s, i).Some? && CallAt(name, s, i).value.end == e && CallAt(name, s, i).value.captures == inner
      <==> (var open := i + |name|;
            && open + 3 <= e <= |s| && s[i..open] == name && s[open] == '(' && s[e - 1] == ')'
            && inner == s[open + 1..e - 1] && ')' !in inner)
  {
    var open := i + |name|;
    if open + 3 <= e <= |s| && s[i..open] == name && s[open] == '(' && s[e - 1] == ')'
       && inner == s[open + 1..e - 1] && ')' !in inner
    {
      forall p | open + 1 <= p < e - 1 ensures s[p] != ')' {
        assert s[p] == inner[p - open - 1];
      }
      assert NextClose(s, open + 1) == e - 1;
    }
  }

  /** A call match needs a `(` in the subject, right after the function name. */
  lemma CallAtNeedsOpen(name: string, s: string, i: nat)
    ensures CallAt(name, s, i).Some? ==> i + |name| < |s| && s[i + |name|] == '('
    ensures '(' !in s ==> CallAt(name, s, i).None?
  {
  }
}

=== FILE: pen.dfy ===
/**
  The pen logic of `drawFunction` (app.js lines 206-243).

  One sample is taken per canvas column, left to right. A sample either
  throws or returns a number `y`. A returned `y` is skipped when
  `y < yMin || y > yMax`; otherwise it is drawn, with `moveTo` when the pen
  is up and `lineTo` when it is down. Skipping and throwing lift the pen.
  The sample outcomes are inputs; pixel arithmetic is not modelled.

  "Drawn" here means the column gets a pen call. A call whose coordinate is
  not finite (a NaN sample gives a NaN `screenY`) is one the canvas ignores;
  what the canvas then strokes is not modelled.
 */
module Pen {

  /** A JavaScript number, as far as comparison is concerned. */
  datatype JsNumber = Finite(v: real) | PosInf | NegInf | NaN

  /** The `<` operator on numbers: false whenever either side is NaN. */
  predicate Less(a: JsNumber, b: JsNumber) {
    match (a, b)
    case (NaN, _) => false
    case (_, NaN) => false
    case (Finite(x), Finite(y)) => x < y
    case (NegInf, NegInf) => false
    case (NegInf, _) => true
    case (_, PosInf) => a != PosInf
    case (_, _) => false
  }

  /** The outcome of `fn.evaluate(...)` at one column. */
  datatype Sample = Threw | Returned(y: JsNumber)

  datatype PenOp = MoveTo(col: nat, y: JsNumber) | LineTo(col: nat, y: JsNumber)

  /** The range test `y < yMin || y > yMax`. */
  predicate Rejected(y: JsNumber, yMin: JsNumber, yMax: JsNumber) {
    Less(y, yMin) || Less(yMax, y)
  }

  /** A column is drawn when its sample returned a value the range test lets through. */
  predicate Drawn(s: Sample, yMin: JsNumber, yMax: JsNumber) {
    s.Returned? && !Rejected(s.y, yMin, yMax)
  }

  /**
    The drawing described column by column, without a pen: column `c` gives
    nothing when it is not drawn, a `lineTo` when column `c - 1` was drawn
    too, else a `moveTo`.
   */
  function Expected(samples: seq<Sample>, yMin: JsNumber, yMax: JsNumber, n: nat): (ops: seq<PenOp>)
    requires n <= |samples|
    ensures |ops| <= n
    ensures forall k :: 0 <= k < |ops| ==> ops[k].col < n
  {
    if n == 0 then []
    else
      var c := n - 1;
      var before := Expected(samples, yMin, yMax, c);
      if !Drawn(samples[c], yMin, yMax) then before
      else if c > 0 && Drawn(samples[c - 1], yMin, yMax) then before + [LineTo(c, samples[c].y)]
      else before + [MoveTo(c, samples[c].y)]
  }

  /** `drawFunction`'s loop over the columns `0 .. width - 1`, with `firstValidPoint` as the pen state. */
  method DrawFunction(samples: seq<Sample>, yMin: JsNumber, yMax: JsNumber) returns (ops: seq<PenOp>)
    ensures ops == Expected(samples, yMin, yMax, |samples|)
  {
    ops := [];
    var penDown := false;
    var col := 0;
    while col < |samples|
      invariant 0 <= col <= |samples|
      invariant ops == Expected(samples, yMin, yMax, col)
      invariant penDown <==> col > 0 && Drawn(samples[col - 1], yMin, yMax)
    {
      match samples[col] {
        case Threw =>
          penDown := false;
        case Returned(y) =>
          if Less(y, yMin) || Less(yMax, y) {
            penDown := false;
          } else if !penDown {
            ops := ops + [MoveTo(col, y)];
            penDown := true;
          } else {
            ops := ops + [LineTo(col, y)];
          }
      }
      col := col + 1;
    }
  }

  /* ----- Properties of the drawing ----- */

  /** The drawing of `n` columns extends that of `n - 1` by at most the point for column `n - 1`. */
  lemma ExpectedStep(samples: seq<Sample>, yMin: JsNumber, yMax: JsNumber, n: nat)
    requires 0 < n <= |samples|
    ensures var ops := Expected(samples, yMin, yMax, n);
      var before := Expected(samples, yMin, yMax, n - 1);
      && (!Drawn(samples[n - 1], yMin, yMax) ==> ops == before)
      && (Drawn(samples[n - 1], yMin, yMax) ==>
            && |ops| == |before| + 1 && ops[..|before|] == before
            && ops[|before|].col == n - 1 && ops[|before|].y == samples[n - 1].y
            && (ops[|before|].LineTo? <==> n - 1 > 0 && Drawn(samples[n - 2], yMin, yMax)))
  {
    var before := Expected(samples, yMin, yMax, n - 1);
    if Drawn(samples[n - 1], yMin, yMax) {
      var ops := Expected(samples, yMin, yMax, n);
      assert ops == before + [ops[|before|]];
      assert (before + [ops[|before|]])[..|before|] == before;
    }
  }

  /** Columns come out strictly increasing, so each column is drawn at most once. */
  lemma {:induction false} ColumnsIncrease(samples: seq<Sample>, yMin: JsNumber, yMax: JsNumber, n: nat)
    requires n <= |samples|
    ensures var ops := Expected(samples, yMin, yMax, n);
      forall j, k :: 0 <= j < k < |ops| ==> ops[j].col < ops[k].col
  {
    if n > 0 {
      ColumnsIncrease(samples, yMin, yMax, n - 1);
      ExpectedStep(samples, yMin, yMax, n);
      var ops := Expected(samples, yMin, yMax, n);
      var before := Expected(samples, yMin, yMax, n - 1);
      forall k | 0 <= k < |before| ensures ops[k] == before[k] && ops[k].col < n - 1 {
        assert ops[k] == ops[..|before|][k] || ops == before;
      }
    }
  }

  /** A column appears in the drawing exactly when its sample is drawn. */
  lemma {:induction false} DrawnExactly(samples: seq<Sample>, yMin: JsNumber, yMax: JsNumber, n: nat, c: nat)
    requires c < n <= |samples|
    ensures var ops := Expected(samples, yMin, yMax, n);
      Drawn(samples[c], yMin, yMax) <==> exists k :: 0 <= k < |ops| && ops[k].col == c
  {
    ExpectedStep(samples, yMin, yMax, n);
    var ops := Expected(samples, yMin, yMax, n);
    var before := Expected(samples, yMin, yMax, n - 1);
    forall k | 0 <= k < |before| ensures ops[k] == before[k] && ops[k].col < n - 1 {
      assert ops[k] == ops[..|before|][k] || ops == before;
    }
    if c < n - 1 {
      DrawnExactly(samples, yMin, yMax, n - 1, c);
      if exists k :: 0 <= k < |ops| && ops[k].col == c {
        var k :| 0 <= k < |ops| && ops[k].col == c;
        assert k < |before|;
        assert before[k].col == c;
      }
      if Drawn(samples[c], yMin, yMax) {
        var k :| 0 <= k < |before| && before[k].col == c;
        assert ops[k].col == c;
      }
    } else if Drawn(samples[c], yMin, yMax) {
      assert ops[|before|].col == c;
    }
  }

  /**
    A pen call is a `lineTo` exactly when the column before it got a pen call
    too: after a throw or a rejected value the next call is always a `moveTo`.
   */
  lemma {:induction false} LineToFollowsDrawn(samples: seq<Sample>, yMin: JsNumber, yMax: JsNumber, n: nat)
    requires n <= |samples|
    ensures var ops := Expected(samples, yMin, yMax, n);
      forall k :: 0 <= k < |ops| ==>
        (ops[k].LineTo? <==> ops[k].col > 0 && Drawn(samples[ops[k].col - 1], yMin, yMax))
  {
    if n > 0 {
      LineToFollowsDrawn(samples, yMin, yMax, n - 1);
      ExpectedStep(samples, yMin, yMax, n);
      var ops := Expected(samples, yMin, yMax, n);
      var before := Expected(samples, yMin, yMax, n - 1);
      forall k | 0 <= k < |before| ensures ops[k] == before[k] {
        assert ops[k] == ops[..|before|][k] || ops == before;
      }
    }
  }

  /** Each drawn point carries its own sample's value. */
  lemma {:induction false} PointsCarrySamples(samples: seq<Sample>, yMin: JsNumber, yMax: JsNumber, n: nat)
    requires n <= |samples|
    ensures var ops := Expected(samples, yMin, yMax, n);
      forall k :: 0 <= k < |ops| ==> samples[ops[k].col] == Returned(ops[k].y)
  {
    if n > 0 {
      PointsCarrySamples(samples, yMin, yMax, n - 1);
      ExpectedStep(samples, yMin, yMax, n);
      var ops := Expected(samples, yMin, yMax, n);
      var before := Expected(samples, yMin, yMax, n - 1);
      forall k | 0 <= k < |before| ensures ops[k] == before[k] {
        assert ops[k] == ops[..|before|][k] || ops == before;
      }
    }
  }

  /**
    NaN passes the range test, since every comparison with it is false: a
    NaN sample gets a pen call and keeps the pen down for the next column.
   */
  lemma NaNIsDrawn(yMin: JsNumber, yMax: JsNumber)
    ensures Drawn(Returned(NaN), yMin, yMax)
  {
  }

  /** Likewise every value gets a pen call when a range bound is NaN. */
  lemma NaNBoundAcceptsAll(y: JsNumber)
    ensures Drawn(Returned(y), NaN, NaN)
  {
  }
}

=== FILE: replace.dfy ===
/**
  `String.prototype.replace` with a global regular expression and a
  replacement callback, for the patterns the engine uses (none of which can
  match the empty string).

  A pattern is a matcher: given the subject and a position it reports the end
  of the match that starts there, if any, and the capture groups the callback
  receives. The scan tries positions left to right; after a match it resumes
  just after it, otherwise one character later. Callbacks run in match order,
  and the first one that throws (or hangs) ends the whole call.
 */
module RegexReplace {
  import opened Outcomes
  import opened Text

  datatype Found<+C> = Found(end: nat, captures: C)

  type Matcher<C> = (string, nat) -> Option<Found<C>>

  /** A match starting inside the subject is non-empty and ends inside it. */
  ghost predicate MatcherOk<C>(m: Matcher<C>) {
    forall s: string, i: nat {:trigger m(s, i)} ::
      i < |s| && m(s, i).Some? ==> i < m(s, i).value.end <= |s|
  }

  /** The scan from position `i` on. */
  function ReplaceFrom<C>(m: Matcher<C>, s: string, i: nat, f: C -> Outcome<FlatText>): Outcome<string>
    requires MatcherOk(m) && i <= |s|
    decreases |s| - i
  {
    if i == |s| then Done([])
    else match m(s, i)
      case None =>
        var rest :- ReplaceFrom(m, s, i + 1, f);
        Done([s[i]] + rest)
      case Some(hit) =>
        var text :- f(hit.captures);
        var rest :- ReplaceFrom(m, s, hit.end, f);
        Done(text + rest)
  }

  function Replace<C>(m: Matcher<C>, s: string, f: C -> Outcome<FlatText>): Outcome<string>
    requires MatcherOk(m)
  {
    ReplaceFrom(m, s, 0, f)
  }

  /* ----- The matches a scan finds, independent of what replaces them ----- */

  /** One piece of the subject: a character copied as it is, or a match. */
  datatype Segment<C> = Kept(at: nat) | Matched(at: nat, end: nat, captures: C) {
    function Stop(): nat {
      if Kept? then at + 1 else end
    }
  }

  /** The segments cover `s[i..]` exactly, in order and without overlap. */
  ghost predicate Tiles<C>(s: string, i: nat, segs: seq<Segment<C>>) {
    && (segs == [] ==> i == |s|)
    && (segs != [] ==> segs[0].at == i && segs[|segs| - 1].Stop() == |s|)
    && (forall k :: 0 <= k < |segs| ==> segs[k].at < segs[k].Stop() <= |s|)
    && (forall j, k :: 0 <= j < |segs| && k == j + 1 < |segs| ==> segs[j].Stop() == segs[k].at)
  }

  /** A kept character is one where no match starts; a match is the one the pattern reports there. */
  ghost predicate Agrees<C>(m: Matcher<C>, s: string, seg: Segment<C>) {
    match seg
    case Kept(at) => m(s, at).None?
    case Matched(at, end, c) => m(s, at) == Some(Found(end, c))
  }

  /**
    The non-overlapping, leftmost-first matches of `m` in `s[i..]`, with the
    characters between them. Computed on the subject alone: nothing a callback
    returns is ever looked at again by the same scan.
   */
  function Segments<C>(m: Matcher<C>, s: string, i: nat): (segs: seq<Segment<C>>)
    requires MatcherOk(m) && i <= |s|
    ensures forall k :: 0 <= k < |segs| ==> i <= segs[k].at < |s|
    decreases |s| - i
  {
    if i == |s| then []
    else match m(s, i)
      case None => [Kept(i)] + Segments(m, s, i + 1)
      case Some(hit) => [Matched(i, hit.end, hit.captures)] + Segments(m, s, hit.end)
  }

  /** The segments tile the rest of the subject, each one as the pattern reports it. */
  lemma {:induction false} SegmentsTile<C>(m: Matcher<C>, s: string, i: nat)
    requires MatcherOk(m) && i <= |s|
    ensures Tiles(s, i, Segments(m, s, i))
    ensures forall k :: 0 <= k < |Segments(m, s, i)| ==> Agrees(m, s, Segments(m, s, i)[k])
    decreases |s| - i
  {
    if i < |s| {
      var seg := FirstSegment(m, s, i);
      var rest := Segments(m, s, seg.Stop());
      SegmentsTile(m, s, seg.Stop());
      assert Segments(m, s, i) == [seg] + rest;
      TilesCons(s, seg, rest);
      AgreesCons(m, s, seg, rest);
    }
  }

  /** A segment followed by a tiling of the text after it tiles from its start. */
  lemma TilesCons<C>(s: string, seg: Segment<C>, rest: seq<Segment<C>>)
    requires seg.at < seg.Stop() <= |s| && Tiles(s, seg.Stop(), rest)
    ensures Tiles(s, seg.at, [seg] + rest)
  {
    var segs := [seg] + rest;
    assert forall k :: 0 < k < |segs| ==> segs[k] == rest[k - 1];
  }

  lemma AgreesCons<C>(m: Matcher<C>, s: string, seg: Segment<C>, rest: seq<Segment<C>>)
    requires Agrees(m, s, seg) && forall k :: 0 <= k < |rest| ==> Agrees(m, s, rest[k])
    ensures forall k :: 0 <= k < |[seg] + rest| ==> Agrees(m, s, ([seg] + rest)[k])
  {
    var segs := [seg] + rest;
    assert forall k :: 0 < k < |segs| ==> segs[k] == rest[k - 1];
  }

  /** How many segments are matches. */
  function MatchCount<C>(segs: seq<Segment<C>>): nat {
    if segs == [] then 0 else (if segs[0].Matched? then 1 else 0) + MatchCount(segs[1..])
  }

  /** The text one segment contributes: the kept character, or what the callback returns for the match. */
  function SegmentText<C>(s: string, seg: Segment<C>, f: C -> Outcome<FlatText>): Outcome<string>
    requires seg.at < |s|
  {
    match seg
    case Kept(at) => Done([s[at]])
    case Matched(_, _, c) => f(c)
  }

  /** Builds the output from a segmentation: kept characters copied, each match replaced by its callback's text. */
  function Render<C>(s: string, segs: seq<Segment<C>>, f: C -> Outcome<FlatText>): Outcome<string>
    requires forall k :: 0 <= k < |segs| ==> segs[k].at < |s|
  {
    if segs == [] then Done([])
    else
      var head :- SegmentText(s, segs[0], f);
      var rest :- Render(s, segs[1..], f);
      Done(head + rest)
  }

  lemma RenderCons<C>(s: string, seg: Segment<C>, rest: seq<Segment<C>>, f: C -> Outcome<FlatText>)
    requires seg.at < |s| && forall k :: 0 <= k < |rest| ==> rest[k].at < |s|
    ensures Render(s, [seg] + rest, f) ==
      (var head :- SegmentText(s, seg, f); var tail :- Render(s, rest, f); Done(head + tail))
  {
    var segs := [seg] + rest;
    assert segs[0] == seg && segs[1..] == rest;
  }

  /**
    The scan is the two-phase procedure of ECMA-262 section 22.2.6.11
    (RegExp.prototype[@@replace]): first collect the matches on the original
    subject, then splice in the replacements. So matches never overlap, the
    text between them is copied unchanged, and a replacement is not rescanned.
   */
  lemma {:induction false} ReplaceIsTwoPhase<C>(m: Matcher<C>, s: string, i: nat, f: C -> Outcome<FlatText>)
    requires MatcherOk(m) && i <= |s|
    ensures ReplaceFrom(m, s, i, f) == Render(s, Segments(m, s, i), f)
    decreases |s| - i
  {
    if i < |s| {
      var seg := FirstSegment(m, s, i);
      ReplaceIsTwoPhase(m, s, seg.Stop(), f);
      ScanStep(m, s, i, f);
      RenderStep(m, s, i, f);
    }
  }

  /** The segment the scan finds at `i`. */
  function FirstSegment<C>(m: Matcher<C>, s: string, i: nat): (seg: Segment<C>)
    requires MatcherOk(m) && i < |s|
    ensures seg.at == i < seg.Stop() <= |s|
  {
    match m(s, i)
    case None => Kept(i)
    case Some(hit) => Matched(i, hit.end, hit.captures)
  }

  lemma ScanStep<C>(m: Matcher<C>, s: string, i: nat, f: C -> Outcome<FlatText>)
    requires MatcherOk(m) && i < |s|
    ensures var seg := FirstSegment(m, s, i);
      ReplaceFrom(m, s, i, f) ==
        (var head :- SegmentText(s, seg, f); var tail :- ReplaceFrom(m, s, seg.Stop(), f); Done(head + tail))
  {
  }

  lemma RenderStep<C>(m: Matcher<C>, s: string, i: nat, f: C -> Outcome<FlatText>)
    requires MatcherOk(m) && i < |s|
    ensures var seg := FirstSegment(m, s, i);
      Render(s, Segments(m, s, i), f) ==
        (var head :- SegmentText(s, seg, f); var tail :- Render(s, Segments(m, s, seg.Stop()), f); Done(head + tail))
  {
    var seg := FirstSegment(m, s, i);
    var rest := Segments(m, s, seg.Stop());
    assert Segments(m, s, i) == [seg] + rest;
    RenderCons(s, seg, rest, f);
  }

  /** The first step of a successful scan: the first segment's text, then the rest of the scan. */
  lemma ReplaceStep<C>(m: Matcher<C>, s: string, i: nat, f: C -> Outcome<FlatText>)
    requires MatcherOk(m) && i < |s| && ReplaceFrom(m, s, i, f).Done?
    ensures var seg := FirstSegment(m, s, i);
      && SegmentText(s, seg, f).Done?
      && ReplaceFrom(m, s, seg.Stop(), f).Done?
      && ReplaceFrom(m, s, i, f).value == SegmentText(s, seg, f).value + ReplaceFrom(m, s, seg.Stop(), f).value
  {
    ScanStep(m, s, i, f);
  }

  /** The first segment is a match or not; the rest of the matches come after it. */
  lemma MatchCountStep<C>(m: Matcher<C>, s: string, i: nat)
    requires MatcherOk(m) && i < |s|
    ensures var seg := FirstSegment(m, s, i);
      MatchCount(Segments(m, s, i)) == (if seg.Matched? then 1 else 0) + MatchCount(Segments(m, s, seg.Stop()))
  {
    var seg := FirstSegment(m, s, i);
    var rest := Segments(m, s, seg.Stop());
    var segs := [seg] + rest;
    assert Segments(m, s, i) == segs;
    assert segs[0] == seg && segs[1..] == rest;
  }

  /** A match anywhere at or after `i` means the scan from `i` finds at least one (maybe an earlier, overlapping one). */
  lemma {:induction false} MatchesFound<C>(m: Matcher<C>, s: string, i: nat, p: nat)
    requires MatcherOk(m) && i <= p < |s| && m(s, p).Some?
    ensures MatchCount(Segments(m, s, i)) > 0
    decreases p - i
  {
    MatchCountStep(m, s, i);
    var seg := FirstSegment(m, s, i);
    if seg.Kept? {
      assert seg.Stop() == i + 1 && i != p;
      MatchesFound(m, s, i + 1, p);
    }
  }

  /** Where the pattern matches nowhere, the subject comes back unchanged. */
  lemma {:induction false} ReplaceNoMatch<C>(m: Matcher<C>, s: string, i: nat, f: C -> Outcome<FlatText>)
    requires MatcherOk(m) && i <= |s|
    requires forall p :: i <= p < |s| ==> m(s, p).None?
    ensures ReplaceFrom(m, s, i, f) == Done(s[i..])
    decreases |s| - i
  {
    if i < |s| {
      ReplaceNoMatch(m, s, i + 1, f);
      ScanStep(m, s, i, f);
      assert FirstSegment(m, s, i) == Kept(i);
      assert s[i..] == [s[i]] + s[i + 1..];
    }
  }

  /** A successful scan never creates a `(`: the kept text had none, and callbacks return flat text. */
  lemma {:induction false} ReplaceKeepsNoOpen<C>(m: Matcher<C>, s: string, i: nat, f: C -> Outcome<FlatText>)
    requires MatcherOk(m) && i <= |s|
    requires '(' !in s
    ensures ReplaceFrom(m, s, i, f).Done? ==> '(' !in ReplaceFrom(m, s, i, f).value
    decreases |s| - i
  {
    if i < |s| {
      var seg := FirstSegment(m, s, i);
      ReplaceKeepsNoOpen(m, s, seg.Stop(), f);
      ScanStep(m, s, i, f);
    }
  }

  /** The scan depends on the callback only through the values it returns. */
  lemma {:induction false} ReplaceCongruent<C>(m: Matcher<C>, s: string, i: nat, f: C -> Outcome<FlatText>, g: C -> Outcome<FlatText>)
    requires MatcherOk(m) && i <= |s|
    requires forall c :: f(c) == g(c)
    ensures ReplaceFrom(m, s, i, f) == ReplaceFrom(m, s, i, g)
    decreases |s| - i
  {
    if i < |s| {
      var seg := FirstSegment(m, s, i);
      ReplaceCongruent(m, s, seg.Stop(), f, g);
      ScanStep(m, s, i, f);
      ScanStep(m, s, i, g);
      assert SegmentText(s, seg, f) == SegmentText(s, seg, g);
    }
  }

  /** A scan whose callback never hangs never hangs either. */
  lemma {:induction false} ReplaceNeverHangs<C>(m: Matcher<C>, s: string, i: nat, f: C -> Outcome<FlatText>)
    requires MatcherOk(m) && i <= |s|
    requires forall c :: !f(c).Diverges?
    ensures !ReplaceFrom(m, s, i, f).Diverges?
    decreases |s| - i
  {
    if i < |s| {
      var seg := FirstSegment(m, s, i);
      ReplaceNeverHangs(m, s, seg.Stop(), f);
      ScanStep(m, s, i, f);
    }
  }
}

=== FILE: resolver.dfy ===
/**
  `resolve(token, scope)` (math.js lines 56-63) and the numeric primitives the
  engine leaves abstract.

  Numbers are opaque: `N` is whatever the JavaScript engine computes with.
  The model fixes only what the code decides by looking at text: which token
  means the variable or a constant, whether `parseFloat` finds a number, and
  which prefix of the token it reads.
 */
module Resolver {
  import opened Outcomes
  import opened Text

  /**
    The numeric world the engine runs in: `scope.x`, `Math.E`, `Math.PI`,
    the value `parseFloat` gives a complete decimal literal, the five binary
    operators (`Math.pow` for `^`), and Number-to-String conversion, whose
    output never holds a parenthesis.
   */
  datatype Numbers<!N> = Numbers(
    x: N,
    e: N,
    pi: N,
    literal: string -> N,
    arith: (char, N, N) -> N,
    show: N -> FlatText)

  /** End of the run of ASCII digits starting at `j`. */
  function DigitsEnd(u: string, j: nat): (k: nat)
    requires j <= |u|
    ensures j <= k <= |u|
    ensures forall p :: j <= p < k ==> IsDigit(u[p])
    ensures k < |u| ==> !IsDigit(u[k])
    decreases |u| - j
  {
    if j < |u| && IsDigit(u[j]) then DigitsEnd(u, j + 1) else j
  }

  /** End of an optional exponent part `e`/`E`, optional sign, one or more digits, starting at `j`. */
  function ExponentEnd(u: string, j: nat): (k: nat)
    requires j <= |u|
    ensures j <= k <= |u|
  {
    if j < |u| && (u[j] == 'e' || u[j] == 'E') then
      var d := if j + 1 < |u| && (u[j + 1] == '+' || u[j + 1] == '-') then j + 2 else j + 1;
      var k := DigitsEnd(u, d);
      if k > d then k else j
    else j
  }

  /** Length of an optional leading sign. */
  function SignLength(u: string): (n: nat)
    ensures n <= 1 && n <= |u|
  {
    if |u| > 0 && (u[0] == '+' || u[0] == '-') then 1 else 0
  }

  /**
    Length of the longest prefix of `u` that is a StrDecimalLiteral, the
    text `parseFloat` reads (ECMA-262 section 19.2.4): a sign, then `Infinity`
    or a decimal with at least one mantissa digit and an optional exponent.
    None when no prefix is one.
   */
  function LiteralLength(u: string): (r: Option<nat>)
    ensures r.Some? ==> 0 < r.value <= |u|
  {
    var i := SignLength(u);
    if |u| >= i + 8 && u[i..i + 8] == "Infinity" then Some(i + 8)
    else
      var intEnd := DigitsEnd(u, i);
      var hasDot := intEnd < |u| && u[intEnd] == '.';
      var fracEnd := if hasDot then DigitsEnd(u, intEnd + 1) else intEnd;
      if intEnd > i || fracEnd > intEnd + 1 then Some(ExponentEnd(u, fracEnd))
      else None
  }

  /**
    The textual condition under which `parseFloat` does not return NaN:
    after an optional sign comes `Infinity`, a digit, or a `.` followed by a digit.
   */
  predicate StartsNumeric(u: string) {
    var i := SignLength(u);
    i < |u| && (
      (|u| >= i + 8 && u[i..i + 8] == "Infinity")
      || IsDigit(u[i])
      || (u[i] == '.' && i + 1 < |u| && IsDigit(u[i + 1])))
  }

  /** `parseFloat` finds a number exactly when the text starts like one. */
  lemma LiteralLengthFound(u: string)
    ensures LiteralLength(u).Some? <==> StartsNumeric(u)
  {
    var i := SignLength(u);
    if i < |u| && !IsDigit(u[i]) {
      assert DigitsEnd(u, i) == i;
    }
  }

  /* ----- The StrDecimalLiteral grammar of ECMA-262 section 7.1.4.1 ----- */

  /** Every character of `w` in `[i, j)` is a digit. */
  ghost predicate AllDigits(w: string, i: nat, j: nat) {
    i <= j <= |w| && forall p :: i <= p < j ==> IsDigit(w[p])
  }

  /** `w[k..]` is an ExponentPart: `e` or `E`, an optional sign, then one or more digits. */
  ghost predicate ExponentPart(w: string, k: nat) {
    && k < |w| && (w[k] == 'e' || w[k] == 'E')
    && ((k + 1 < |w| && AllDigits(w, k + 1, |w|))
        || (k + 2 < |w| && (w[k + 1] == '+' || w[k + 1] == '-') && AllDigits(w, k + 2, |w|)))
  }

  /** `w[k..]` is empty or an ExponentPart. */
  ghost predicate OptionalExponent(w: string, k: nat) {
    k == |w| || ExponentPart(w, k)
  }

  /**
    `w[i..f]` is a mantissa with a point at `d`: digits, `.`, digits, with
    at least one digit on one side or the other.
   */
  ghost predicate PointMantissa(w: string, i: nat, d: nat, f: nat) {
    && i <= d < f <= |w| && w[d] == '.'
    && AllDigits(w, i, d) && AllDigits(w, d + 1, f)
    && (i < d || d + 1 < f)
  }

  /**
    `w[i..]` is a StrUnsignedDecimalLiteral: `Infinity`, or digits with an
    optional exponent, or a mantissa with a point and an optional exponent.
   */
  ghost predicate IsUnsignedDecimal(w: string, i: nat) {
    || (i <= |w| && w[i..] == "Infinity")
    || (exists k :: i < k && AllDigits(w, i, k) && OptionalExponent(w, k))
    || (exists d, f :: PointMantissa(w, i, d, f) && OptionalExponent(w, f))
  }

  /** `w` is a StrDecimalLiteral: an optional sign, then an unsigned literal. */
  ghost predicate IsStrDecimalLiteral(w: string) {
    IsUnsignedDecimal(w, SignLength(w))
  }

  /** A run of digits is read at least to its end, and exactly to it when a non-digit follows. */
  lemma DigitsEndReaches(u: string, j: nat, k: nat)
    requires j <= k && AllDigits(u, j, k)
    ensures DigitsEnd(u, j) >= k
    ensures k < |u| && !IsDigit(u[k]) ==> DigitsEnd(u, j) == k
  {
  }

  /** Digits in a prefix are digits in the whole text, and back. */
  lemma DigitsOfPrefix(u: string, m: nat, i: nat, j: nat)
    requires j <= m <= |u|
    ensures AllDigits(u[..m], i, j) <==> AllDigits(u, i, j)
  {
    assert forall p :: 0 <= p < m ==> u[..m][p] == u[p];
  }

  /** An exponent that makes up the rest of a prefix is read at least to the prefix's end. */
  lemma ExponentReaches(u: string, m: nat, k: nat)
    requires m <= |u| && ExponentPart(u[..m], k)
    ensures ExponentEnd(u, k) >= m
  {
    var w := u[..m];
    assert u[k] == w[k];
    if k + 1 < m && AllDigits(w, k + 1, m) {
      DigitsOfPrefix(u, m, k + 1, m);
      assert !(u[k + 1] == '+' || u[k + 1] == '-') by { assert w[k + 1] == u[k + 1]; }
      DigitsEndReaches(u, k + 1, m);
    } else {
      assert w[k + 1] == u[k + 1];
      DigitsOfPrefix(u, m, k + 2, m);
      DigitsEndReaches(u, k + 2, m);
    }
  }

  /** Whatever `ExponentEnd` reads beyond `k` is an ExponentPart. */
  lemma ExponentIsPart(u: string, k: nat)
    requires k <= |u| && ExponentEnd(u, k) > k
    ensures ExponentPart(u[..ExponentEnd(u, k)], k)
  {
    var n := ExponentEnd(u, k);
    var w := u[..n];
    assert w[k] == u[k];
    var d := if k + 1 < |u| && (u[k + 1] == '+' || u[k + 1] == '-') then k + 2 else k + 1;
    assert n == DigitsEnd(u, d) && n > d;
    DigitsOfPrefix(u, n, d, n);
    if d == k + 2 {
      assert w[k + 1] == u[k + 1];
    }
  }

  /** The sign of a non-empty prefix is the sign of the text. */
  lemma SignOfPrefix(u: string, m: nat)
    requires 0 < m <= |u|
    ensures SignLength(u[..m]) == SignLength(u)
  {
    assert u[..m][0] == u[0];
  }

  /** The empty text is no literal. */
  lemma EmptyIsNoLiteral()
    ensures !IsStrDecimalLiteral([])
  {
    assert SignLength([]) == 0;
  }

  /** What `LiteralLength` reads is a StrDecimalLiteral. */
  lemma LiteralLengthIsLiteral(u: string)
    requires LiteralLength(u).Some?
    ensures IsStrDecimalLiteral(u[..LiteralLength(u).value])
  {
    var n := LiteralLength(u).value;
    var w := u[..n];
    SignOfPrefix(u, n);
    var i := SignLength(u);
    if |u| >= i + 8 && u[i..i + 8] == "Infinity" {
      assert w[i..] == u[i..i + 8];
    } else {
      var intEnd := DigitsEnd(u, i);
      var hasDot := intEnd < |u| && u[intEnd] == '.';
      var fracEnd := if hasDot then DigitsEnd(u, intEnd + 1) else intEnd;
      assert n == ExponentEnd(u, fracEnd);
      if n > fracEnd {
        ExponentIsPart(u, fracEnd);
      }
      assert OptionalExponent(w, fracEnd);
      DigitsOfPrefix(u, n, i, intEnd);
      if hasDot {
        DigitsOfPrefix(u, n, intEnd + 1, fracEnd);
        assert w[intEnd] == u[intEnd];
        assert PointMantissa(w, i, intEnd, fracEnd);
      } else {
        assert AllDigits(w, i, intEnd);
      }
    }
  }

  /** A literal made of digits and an optional exponent is read at least to its end. */
  lemma DigitsLiteralReached(u: string, m: nat, k: nat)
    requires m <= |u| && 0 < m
    requires SignLength(u) < k && AllDigits(u[..m], SignLength(u), k) && OptionalExponent(u[..m], k)
    ensures LiteralLength(u).Some? && LiteralLength(u).value >= m
  {
    var i := SignLength(u);
    var w := u[..m];
    assert k <= m;
    DigitsOfPrefix(u, m, i, k);
    assert IsDigit(u[i]);
    DigitsEndReaches(u, i, k);
    if k < m {
      assert w[k] == u[k];
      assert DigitsEnd(u, i) == k;
      ExponentReaches(u, m, k);
    }
  }

  /** A literal with a point is read at least to its end. */
  lemma PointLiteralReached(u: string, m: nat, d: nat, f: nat)
    requires m <= |u| && 0 < m
    requires PointMantissa(u[..m], SignLength(u), d, f) && OptionalExponent(u[..m], f)
    ensures LiteralLength(u).Some? && LiteralLength(u).value >= m
  {
    var i := SignLength(u);
    var w := u[..m];
    DigitsOfPrefix(u, m, i, d);
    DigitsOfPrefix(u, m, d + 1, f);
    assert u[d] == w[d];
    assert u[i] == w[i];
    DigitsEndReaches(u, i, d);
    DigitsEndReaches(u, d + 1, f);
    if f < m {
      assert w[f] == u[f];
      ExponentReaches(u, m, f);
    }
  }

  /** A StrDecimalLiteral prefix is never longer than what `LiteralLength` reads. */
  lemma LiteralReachedAtLeast(u: string, m: nat)
    requires m <= |u| && IsStrDecimalLiteral(u[..m])
    ensures LiteralLength(u).Some? && LiteralLength(u).value >= m
  {
    var w := u[..m];
    if m == 0 {
      assert w == [];
      EmptyIsNoLiteral();
      assert false;
    }
    SignOfPrefix(u, m);
    var i := SignLength(u);
    if i <= |w| && w[i..] == "Infinity" {
      assert u[i..i + 8] == w[i..];
    } else if k :| i < k && AllDigits(w, i, k) && OptionalExponent(w, k) {
      DigitsLiteralReached(u, m, k);
    } else {
      var d, f :| PointMantissa(w, i, d, f) && OptionalExponent(w, f);
      PointLiteralReached(u, m, d, f);
    }
  }

  /**
    `LiteralLength` is the length of the longest prefix that is a
    StrDecimalLiteral, and None exactly when no prefix is one.
   */
  lemma LiteralLengthIsLongest(u: string)
    ensures LiteralLength(u).Some? ==> IsStrDecimalLiteral(u[..LiteralLength(u).value])
    ensures forall m :: 0 <= m <= |u| && IsStrDecimalLiteral(u[..m]) ==>
      LiteralLength(u).Some? && m <= LiteralLength(u).value
    ensures LiteralLength(u).None? <==> forall m :: 0 <= m <= |u| ==> !IsStrDecimalLiteral(u[..m])
  {
    if LiteralLength(u).Some? {
      LiteralLengthIsLiteral(u);
    }
    forall m | 0 <= m <= |u| && IsStrDecimalLiteral(u[..m])
      ensures LiteralLength(u).Some? && m <= LiteralLength(u).value
    {
      LiteralReachedAtLeast(u, m);
    }
  }

  /**
    `parseFloat(token)`: skip leading whitespace, then read the longest
    decimal literal. None stands for NaN.
   */
  function ParseFloatPrefix(token: string): (r: Option<string>)
    ensures r.Some? ==> |r.value| > 0
    ensures r.Some? <==> StartsNumeric(TrimStart(token))
    ensures r.Some? ==> |r.value| <= |TrimStart(token)| && r.value == TrimStart(token)[..|r.value|]
  {
    var u := TrimStart(token);
    LiteralLengthFound(u);
    match LiteralLength(u)
    case None => None
    case Some(n) => Some(u[..n])
  }

  /**
    `parseFloat` reads the longest StrDecimalLiteral after the leading
    whitespace, and gives NaN exactly when no prefix there is one.
   */
  lemma ParseFloatReadsLongest(token: string)
    ensures var u := TrimStart(token);
      match ParseFloatPrefix(token)
      case Some(w) =>
        && IsStrDecimalLiteral(w) && w == u[..|w|]
        && forall m :: |w| < m <= |u| ==> !IsStrDecimalLiteral(u[..m])
      case None => forall m :: 0 <= m <= |u| ==> !IsStrDecimalLiteral(u[..m])
  {
    LiteralLengthIsLongest(TrimStart(token));
  }

  /** `resolve`: the variable and the two constants by exact spelling, else `parseFloat`, else an error. */
  function Resolve<N>(token: string, num: Numbers<N>): (r: Outcome<N>)
    ensures !r.Diverges?
    ensures r.Throws? <==> token != "x" && token != "e" && token != "pi" && !StartsNumeric(TrimStart(token))
    ensures r.Throws? ==> r.message == "Unknown token: " + token
  {
    if token == "x" then Done(num.x)
    else if token == "e" then Done(num.e)
    else if token == "pi" then Done(num.pi)
    else match ParseFloatPrefix(token)
      case Some(literal) => Done(num.literal(literal))
      case None => Throws("Unknown token: " + token)
  }

  /**
    The three names are looked up before any number parsing: `x`, `e`, `pi`
    give `scope.x`, `Math.E`, `Math.PI`, and no other spelling (`PI`, ` x`)
    reaches them.
   */
  lemma ResolveNames<N>(num: Numbers<N>)
    ensures Resolve("x", num) == Done(num.x)
    ensures Resolve("e", num) == Done(num.e)
    ensures Resolve("pi", num) == Done(num.pi)
    ensures Resolve("PI", num) == Throws("Unknown token: PI")
    ensures Resolve(" x", num) == Throws("Unknown token:  x")
  {
    TrimStartUnspaced("PI");
    assert TrimStart(" x") == "x";
  }

  /** `parseFloat` reads exactly the first `n` characters of a token with no leading space. */
  lemma ReadsPrefix<N>(token: string, n: nat, num: Numbers<N>)
    requires token != "x" && token != "e" && token != "pi"
    requires token == [] || !IsWhitespace(token[0])
    requires LiteralLength(token) == Some(n)
    ensures Resolve(token, num) == Done(num.literal(token[..n]))
  {
    TrimStartUnspaced(token);
  }

  /**
    A token that is no name and starts with a StrDecimalLiteral no longer
    prefix extends resolves to the value of that literal.
   */
  lemma ResolveReadsLongest<N>(token: string, n: nat, num: Numbers<N>)
    requires token != "x" && token != "e" && token != "pi"
    requires token == [] || !IsWhitespace(token[0])
    requires n <= |token| && IsStrDecimalLiteral(token[..n])
    requires forall m :: n < m <= |token| ==> !IsStrDecimalLiteral(token[..m])
    ensures Resolve(token, num) == Done(num.literal(token[..n]))
  {
    LiteralLengthIsLongest(token);
    LiteralLengthIsLiteral(token);
    ReadsPrefix(token, LiteralLength(token).value, num);
  }

  /** A digit followed by nothing that could continue a number is read alone. */
  lemma ReadsSingleDigit<N>(token: string, num: Numbers<N>)
    requires |token| > 0 && IsDigit(token[0])
    requires |token| == 1 || (!IsNumChar(token[1]) && token[1] != 'e' && token[1] != 'E')
    ensures Resolve(token, num) == Done(num.literal(token[..1]))
  {
    assert SignLength(token) == 0;
    assert DigitsEnd(token, 0) == 1;
    assert ExponentEnd(token, 1) == 1;
    assert token != "x" && token != "e" && token != "pi" by {
      assert token[0] != 'x' && token[0] != 'e' && token[0] != 'p';
    }
    ReadsPrefix(token, 1, num);
  }

  /** `parseFloat` reads `2` from `2*pi`. */
  lemma ReadsTwoOfProduct<N>(num: Numbers<N>)
    ensures Resolve("2*pi", num) == Done(num.literal("2"))
  {
    assert "2*pi"[1] == '*';
    ReadsSingleDigit("2*pi", num);
    assert "2*pi"[..1] == "2";
  }

  lemma ReadsDigit<N>(num: Numbers<N>)
    ensures Resolve("0", num) == Done(num.literal("0"))
  {
    ReadsSingleDigit("0", num);
    assert "0"[..1] == "0";
  }

  lemma ReadsBeforeClose<N>(num: Numbers<N>)
    ensures Resolve("7)", num) == Done(num.literal("7"))
  {
    assert "7)"[1] == ')';
    ReadsSingleDigit("7)", num);
    assert "7)"[..1] == "7";
  }

  lemma ReadsFiveOfSum<N>(num: Numbers<N>)
    ensures Resolve("5+4", num) == Done(num.literal("5"))
  {
    assert "5+4"[1] == '+';
    ReadsSingleDigit("5+4", num);
    assert "5+4"[..1] == "5";
  }

  lemma ReadsOneDot<N>(num: Numbers<N>)
    ensures Resolve("1.2.3", num) == Done(num.literal("1.2"))
  {
    assert DigitsEnd("1.2.3", 0) == 1;
    assert DigitsEnd("1.2.3", 2) == 3;
    assert LiteralLength("1.2.3") == Some(3);
    ReadsPrefix("1.2.3", 3, num);
    assert "1.2.3"[..3] == "1.2";
  }

  /**
    Lenient parsing: trailing text after a number is ignored, so `2*pi`,
    `5+4` and `1.2.3` resolve to the numbers `2`, `5` and `1.2`.
   */
  lemma ResolveIgnoresTrailing<N>(num: Numbers<N>)
    ensures Resolve("2*pi", num) == Done(num.literal("2"))
    ensures Resolve("5+4", num) == Done(num.literal("5"))
    ensures Resolve("1.2.3", num) == Done(num.literal("1.2"))
  {
    ReadsTwoOfProduct(num);
    ReadsFiveOfSum(num);
    ReadsOneDot(num);
  }

  lemma ReadsSignedInfinity<N>(num: Numbers<N>)
    ensures Resolve("-Infinityx", num) == Done(num.literal("-Infinity"))
  {
    assert "-Infinityx"[1..9] == "Infinity";
    assert LiteralLength("-Infinityx") == Some(9);
    ReadsPrefix("-Infinityx", 9, num);
    assert "-Infinityx"[..9] == "-Infinity";
  }

  lemma ReadsExponent<N>(num: Numbers<N>)
    ensures Resolve("1e5e", num) == Done(num.literal("1e5"))
  {
    assert DigitsEnd("1e5e", 0) == 1;
    assert DigitsEnd("1e5e", 2) == 3;
    assert LiteralLength("1e5e") == Some(3);
    ReadsPrefix("1e5e", 3, num);
    assert "1e5e"[..3] == "1e5";
  }

  lemma ReadsNoBareExponent<N>(num: Numbers<N>)
    ensures Resolve("7e+", num) == Done(num.literal("7"))
  {
    assert DigitsEnd("7e+", 0) == 1;
    assert DigitsEnd("7e+", 3) == 3;
    assert LiteralLength("7e+") == Some(1);
    ReadsPrefix("7e+", 1, num);
    assert "7e+"[..1] == "7";
  }

  /** The longest literal is read: a signed `Infinity`, and an exponent only when digits follow the `e`. */
  lemma ResolveLongestLiteral<N>(num: Numbers<N>)
    ensures Resolve("-Infinityx", num) == Done(num.literal("-Infinity"))
    ensures Resolve("1e5e", num) == Done(num.literal("1e5"))
    ensures Resolve("7e+", num) == Done(num.literal("7"))
  {
    ReadsSignedInfinity(num);
    ReadsExponent(num);
    ReadsNoBareExponent(num);
  }

  /** `NaN`, a lone `.` and the empty text are unknown tokens. */
  lemma ResolveRejects<N>(num: Numbers<N>)
    ensures Resolve("NaN", num) == Throws("Unknown token: NaN")
    ensures Resolve(".", num) == Throws("Unknown token: .")
    ensures Resolve("", num) == Throws("Unknown token: ")
  {
    TrimStartUnspaced("NaN");
    TrimStartUnspaced(".");
  }

  /**
    A character no token `resolve` accepts can start with: it begins no
    number (no digit, dot, sign or `I` of `Infinity`), is not skipped as
    whitespace, and is not the first letter of `x`, `e` or `pi`.
   */
  predicate BeginsNoToken(c: char) {
    !IsNumChar(c) && !IsWhitespace(c) && c != '+' && c != '-' && c != 'I'
    && c != 'x' && c != 'e' && c != 'p'
  }

  lemma NotNumericStart(token: string)
    requires |token| > 0 && BeginsNoToken(token[0])
    ensures !StartsNumeric(token)
  {
    assert SignLength(token) == 0;
    assert "Infinity"[0] == 'I';
    assert |token| >= 8 ==> token[0..8][0] == token[0];
  }

  lemma NotAName(token: string)
    requires |token| > 0 && BeginsNoToken(token[0])
    ensures token != "x" && token != "e" && token != "pi"
  {
    assert "x"[0] == 'x' && "e"[0] == 'e' && "pi"[0] == 'p';
  }

  /** `resolve` throws exactly its message for a token that is no name and starts no number. */
  lemma ResolveUnknown<N>(token: string, num: Numbers<N>)
    requires token != "x" && token != "e" && token != "pi"
    requires TrimStart(token) == token && !StartsNumeric(token)
    ensures Resolve(token, num) == Throws("Unknown token: " + token)
  {
  }

  /** A token whose first character begins no token is unknown. */
  lemma ResolveLeadingLetter<N>(token: string, num: Numbers<N>)
    requires |token| > 0 && BeginsNoToken(token[0])
    ensures Resolve(token, num) == Throws("Unknown token: " + token)
  {
    NotNumericStart(token);
    TrimStartUnspaced(token);
    NotAName(token);
    ResolveUnknown(token, num);
  }
}

=== FILE: text.dfy ===
/**
  Characters and the whitespace handling the engine and the UI share.

  JavaScript's `\s` class, `String.prototype.trim` and the leading trim inside
  `parseFloat` all use one character set: the WhiteSpace and LineTerminator
  code points of ECMA-262 (sections 12.2 and 12.3).
 */
module Text {

  /** ECMA-262 WhiteSpace and LineTerminator. */
  predicate IsWhitespace(c: char) {
    c == '\t' || c == '\n' || c == '\U{000B}' || c == '\U{000C}' || c == '\r'
    || c == ' ' || c == '\U{00A0}' || c == '\U{1680}'
    || ('\U{2000}' <= c <= '\U{200A}')
    || c == '\U{2028}' || c == '\U{2029}' || c == '\U{202F}' || c == '\U{205F}'
    || c == '\U{3000}' || c == '\U{FEFF}'
  }

  /** The regex class `\d` without the `u` flag: ASCII digits only. */
  predicate IsDigit(c: char) {
    '0' <= c <= '9'
  }

  /** The regex class `[\d.]` the operator passes use for numbers. */
  predicate IsNumChar(c: char) {
    IsDigit(c) || c == '.'
  }

  predicate NoParens(s: string) {
    '(' !in s && ')' !in s
  }

  /** Text with no parenthesis: what every substitution the engine makes produces. */
  type FlatText = s: string | NoParens(s) witness []

  function Count(c: char, s: string): (n: nat)
    ensures n <= |s|
    ensures n == 0 <==> c !in s
  {
    if s == [] then 0 else (if s[0] == c then 1 else 0) + Count(c, s[1..])
  }

  lemma {:induction false} CountConcat(c: char, a: string, b: string)
    ensures Count(c, a + b) == Count(c, a) + Count(c, b)
  {
    if a == [] {
      assert a + b == b;
    } else {
      assert (a + b)[1..] == a[1..] + b;
      CountConcat(c, a[1..], b);
    }
  }

  /** `s.replace(/\s+/g, '')`: every whitespace run deleted. */
  function StripWhitespace(s: string): (r: string)
    ensures forall k :: 0 <= k < |r| ==> !IsWhitespace(r[k])
    ensures forall c :: !IsWhitespace(c) ==> Count(c, r) == Count(c, s)
    ensures forall c :: c in r ==> c in s
  {
    if s == [] then []
    else if IsWhitespace(s[0]) then StripWhitespace(s[1..])
    else
      var rest := StripWhitespace(s[1..]);
      assert forall c :: Count(c, [s[0]] + rest) == Count(c, [s[0]]) + Count(c, rest) by {
        forall c ensures Count(c, [s[0]] + rest) == Count(c, [s[0]]) + Count(c, rest) {
          CountConcat(c, [s[0]], rest);
        }
      }
      [s[0]] + rest
  }

  /** Deletion commutes with concatenation, so the kept characters stay in order. */
  lemma {:induction false} StripConcat(a: string, b: string)
    ensures StripWhitespace(a + b) == StripWhitespace(a) + StripWhitespace(b)
  {
    if a == [] {
      assert a + b == b;
    } else {
      assert (a + b)[1..] == a[1..] + b;
      StripConcat(a[1..], b);
    }
  }

  /** Text without whitespace is left as it is, so stripping twice is stripping once. */
  lemma {:induction false} StripFixesClean(s: string)
    requires forall k :: 0 <= k < |s| ==> !IsWhitespace(s[k])
    ensures StripWhitespace(s) == s
  {
    if s != [] {
      StripFixesClean(s[1..]);
    }
  }

  lemma StripIdempotent(s: string)
    ensures StripWhitespace(StripWhitespace(s)) == StripWhitespace(s)
  {
    StripFixesClean(StripWhitespace(s));
  }

  /** Index of the first non-whitespace character at or after `i`. */
  function SkipWhitespace(s: string, i: nat): (k: nat)
    requires i <= |s|
    ensures i <= k <= |s|
    ensures forall p :: i <= p < k ==> IsWhitespace(s[p])
    ensures k < |s| ==> !IsWhitespace(s[k])
    decreases |s| - i
  {
    if i < |s| && IsWhitespace(s[i]) then SkipWhitespace(s, i + 1) else i
  }

  /** Index just after the last non-whitespace character before `j`. */
  function BackWhitespace(s: string, lo: nat, j: nat): (k: nat)
    requires lo <= j <= |s|
    ensures lo <= k <= j
    ensures forall p :: k <= p < j ==> IsWhitespace(s[p])
    ensures k > lo ==> !IsWhitespace(s[k - 1])
    decreases j
  {
    if j > lo && IsWhitespace(s[j - 1]) then BackWhitespace(s, lo, j - 1) else j
  }

  /** The ECMA-262 TrimString(s, start) that `parseFloat` applies first. */
  function TrimStart(s: string): (r: string)
    ensures |r| <= |s| && r == s[|s| - |r|..]
    ensures forall p :: 0 <= p < |s| - |r| ==> IsWhitespace(s[p])
    ensures r != [] ==> !IsWhitespace(r[0])
  {
    s[SkipWhitespace(s, 0)..]
  }

  lemma TrimStartUnspaced(s: string)
    requires s == [] || !IsWhitespace(s[0])
    ensures TrimStart(s) == s
  {
    assert SkipWhitespace(s, 0) == 0;
  }

  /** `String.prototype.trim`. */
  function Trim(s: string): (r: string)
    ensures var lead := SkipWhitespace(s, 0);
      && lead + |r| <= |s| && r == s[lead..lead + |r|]
      && (forall p :: 0 <= p < lead ==> IsWhitespace(s[p]))
      && (forall p :: lead + |r| <= p < |s| ==> IsWhitespace(s[p]))
    ensures r != [] ==> !IsWhitespace(r[0]) && !IsWhitespace(r[|r| - 1])
    ensures r == [] <==> forall p :: 0 <= p < |s| ==> IsWhitespace(s[p])
  {
    var lead := SkipWhitespace(s, 0);
    var stop := BackWhitespace(s, lead, |s|);
    assert stop == lead ==> forall p :: 0 <= p < |s| ==> IsWhitespace(s[p]);
    s[lead..stop]
  }

  /** Text with no whitespace at either end is its own trim, so trimming twice is trimming once. */
  lemma TrimFixesTrimmed(s: string)
    requires s != [] ==> !IsWhitespace(s[0]) && !IsWhitespace(s[|s| - 1])
    ensures Trim(s) == s
  {
    assert SkipWhitespace(s, 0) == 0;
    assert BackWhitespace(s, 0, |s|) == |s|;
  }

  lemma TrimIdempotent(s: string)
    ensures Trim(Trim(s)) == Trim(s)
  {
    TrimFixesTrimmed(Trim(s));
  }
}

=== FILE: ticks.dfy ===
/**
  The "nice number" choice of `calculateTickInterval` (app.js lines 181-204).

  The raw interval is split as `normalized * magnitude` with `magnitude` a
  power of ten; `normalized` picks one of the multipliers 1, 2, 5, 10 by the
  thresholds 1.5, 3 and 7. Logarithms and powers are not modelled: the
  magnitude and the normalized value are inputs.
 */
module Ticks {

  /** The bucket: 1 below 1.5, 2 below 3, 5 below 7, else 10. */
  function Multiplier(normalized: real): (m: real)
    ensures m == 1.0 || m == 2.0 || m == 5.0 || m == 10.0
    ensures m == 1.0 <==> normalized < 1.5
    ensures m == 2.0 <==> 1.5 <= normalized < 3.0
    ensures m == 5.0 <==> 3.0 <= normalized < 7.0
    ensures m == 10.0 <==> 7.0 <= normalized
  {
    if normalized < 1.5 then 1.0
    else if normalized < 3.0 then 2.0
    else if normalized < 7.0 then 5.0
    else 10.0
  }

  /** The tick interval: the chosen multiplier of the power of ten. */
  function NiceInterval(magnitude: real, normalized: real): (r: real)
    ensures r == Multiplier(normalized) * magnitude
    ensures magnitude > 0.0 ==> r >= magnitude
    ensures magnitude > 0.0 ==> r <= 10.0 * magnitude
  {
    Multiplier(normalized) * magnitude
  }

  /** A larger normalized value never picks a smaller multiplier. */
  lemma MultiplierMonotone(a: real, b: real)
    requires a <= b
    ensures Multiplier(a) <= Multiplier(b)
  {
  }

  /**
    The buckets cover the whole range of a normalized value and the pick
    stays close to it: for `1 <= n < 10` the multiplier lies in `(2n/3, 5n/3]`.
   */
  lemma MultiplierClose(n: real)
    requires 1.0 <= n < 10.0
    ensures 2.0 * n / 3.0 < Multiplier(n) <= 5.0 * n / 3.0
  {
  }

  /**
    So the tick interval is within a factor of 1.5 below and 5/3 above the
    raw interval `n * magnitude` it rounds.
   */
  lemma NiceIntervalClose(magnitude: real, n: real)
    requires magnitude > 0.0 && 1.0 <= n < 10.0
    ensures 2.0 * (n * magnitude) / 3.0 < NiceInterval(magnitude, n) <= 5.0 * (n * magnitude) / 3.0
  {
    MultiplierClose(n);
    var m := Multiplier(n);
    assert 2.0 * n / 3.0 * magnitude < m * magnitude;
    assert m * magnitude <= 5.0 * n / 3.0 * magnitude;
  }
}
